=== FILE: README.md ===
# isochrone — a Dafny model of its core

The isochrone library computes the areas reachable from a start point within given
travel times. There are two routing back-ends:

- **OSRM.** The library lays a point grid around the origin. It asks OSRM's table
  service for the travel time to every grid point, in batches of URLs, and merges the
  answers into one table. It then groups the destinations into cumulative bands, one
  per interval, and wraps each band with at least three points in a concave hull.
- **Valhalla.** The library asks Valhalla's isochrone service for one contour per
  interval.

On either path the polygons can be *deintersected*: each one minus all the ones after
it, which turns nested areas into rings. An HTTP server in front of the library parses
GET query parameters or a POST body into options. It validates and defaults them, then
calls `IsoChrone`.

The model covers these files:

- `src/index.mjs`: the ES module.
- `src/index.js`: the older CommonJS script.
- `server/index.mjs`: the server's parsers and `run`.

It is split into these modules:

| module | file | what it holds |
|---|---|---|
| `Wrappers` | wrappers.dfy | `Option` and `Result` |
| `Js` | js.dfy | JavaScript numbers (NaN, ±Infinity), `<=`, `Math.max`, truthiness, property reads, and the engine's conversions as parameters |
| `Text` | text.dfy | `join`, `split`, decimal spelling of indices, `URLSearchParams` encoding |
| `Geo` | geo.dfy | positions, waypoints, polygon features (a region as a set of points, plus properties), and turf's union and difference |
| `OsrmRequest` | osrm_request.dfy | `buildOSRMBaseUrl`, the longitude pattern, URL chunking in both sources |
| `TableMerge` | table_merge.dfy | the fold that merges the table responses |
| `Banding` | banding.dfy | `groupByInterval`, `makePolygons`, the `Object.keys` order |
| `Deintersect` | deintersect.dfy | the two-pass deintersection and its closed form |
| `Isochrone` | isochrone.dfy | `isochroneOSRM`, `isochroneValhalla`, `IsoChrone`, and the transparency of batching |
| `Server` | server.dfy | the query parsers, the GET handler's options, and `run`'s checks and defaults |

Anything that belongs to a collaborator rather than to the program is a parameter:

- the HTTP fetches (a table service and a contour service, each a function from request to reply);
- the point grid;
- concaveman's hull;
- turf's union and difference, modelled as set union and set difference on regions plus a function that chooses the resulting properties;
- `parseFloat`, `Number(string)` and `Number.prototype.toString`.

## Model

| member | source | states |
|---|---|---|
| OsrmRequest.BuildBaseUrl | src/index.mjs:65-87 | the checks run in the source's order, and each error occurs exactly when its check is the first to fail: unknown profile, non-numeric origin, longitude not matching `^-?\d{1,3}(\.\d+)?$`, latitude outside [-90, 90] (a NaN latitude passes); on success the URL is the fixed table service, profile, longitude and latitude |
| OsrmRequest.SpelledLongitudeMatches | src/index.mjs:78 | every word of the longitude pattern (optional minus, 1–3 digits, optional point with at least one digit) passes the scan the model uses |
| OsrmRequest.Decompose | src/index.mjs:78 | every string the scan accepts is spelled by well-formed parts, so the scan accepts exactly the pattern's language |
| OsrmRequest.ChunkedUrls | src/index.mjs:97-116 | the loop emits ceil(n / size) URLs, or none when only the origin is present; URL k is the prefix, then `;lon,lat` for every coordinate of chunk k (chunk 0 skips the origin), then the suffix |
| OsrmRequest.ChunksCoverTail | src/index.mjs:99-116 | with a chunk size of at least 2, the chunks together carry every coordinate after the origin exactly once, in order; a lone origin gives no URL |
| OsrmRequest.BuildOsrmUrls | src/index.mjs:89-119 | 5000 destinations per URL after the base URL; `URLSearchParams` writes the sources joined by `;` as `%3B` |
| OsrmRequest.ScriptOsrmUrls | src/index.js:109-129 | 10000 destinations per URL; each URL starts with the endpoint, profile and origin; the sources are joined by a plain `;` |
| Text.FormEncodeJoinedDecimals | src/index.mjs:92-94 | form-encoding the `;`-joined source indices leaves the digits alone and writes each `;` as `%3B` |
| TableMerge.MergeMatchesReference | src/index.mjs:165-197 | the merge loop equals a closed form: it stops at the first reply that is not Ok; a failed fetch rejects; the row is 0 followed by every Ok row minus its first entry; the destinations are one origin entry followed by every Ok response's destinations minus their first; the sources are the first non-empty ones; the code is the last truthy code read |
| TableMerge.MergeStopsAtFirstNonOk | src/index.mjs:176-178 | replies after the first non-Ok reply never influence the result |
| TableMerge.FirstTransportFailureRejects | src/index.mjs:171-172 | a failed first fetch rejects the merge, whatever later replies would be |
| TableMerge.MergeKeepsAlignment | src/index.js:131-165 | when each Ok response pairs its row with its destinations, the merged row and destinations have the same length and pair up as the responses paired them |
| TableMerge.OkCount | src/index.mjs:171-178 | the number of leading Ok replies: all before it are Ok, the one at it is not |
| Isochrone.FetchAndMerge | src/index.mjs:171-199 | the sequential fetch loop yields the merge of the replies to all URLs, and fetches exactly the replies the merge reads |
| Isochrone.IsochroneOsrm | src/index.mjs:161-200 | a base URL error rejects before any fetch; otherwise the result is the merge of the replies to the planned URLs, and the code is never checked |
| Isochrone.ScriptIsochroneOsrm | src/index.js:107-166 | the script's loop merges the replies to its own URLs; a coordinate list holding only the origin makes no request and settles with the initial table (code 'Error') |
| Isochrone.BatchingIsTransparent | src/index.js:109-165 | against a table service that answers every chunk consistently, merging the chunked answers gives exactly the table of one unbatched request |
| Banding.GroupByInterval | src/index.mjs:35-45 | one group per distinct interval, in first-occurrence order; a later duplicate overwrites its own key; each group holds the band of its interval |
| Banding.BandMembership | src/index.mjs:38-40 | a location is in the band of t exactly when some destination with that location has a non-null travel time of at most t × 60 seconds |
| Banding.BandKeepsOrder | src/index.mjs:38-40 | a band keeps destination order: it is a subsequence of all locations |
| Banding.BandsNest | src/index.js:39-42 | bands are cumulative: for t1 <= t2 the band of t1 is a subsequence of the band of t2 |
| Banding.PropertyOrderIsPermutation | src/index.mjs:53 | `Object.keys` lists every key exactly once |
| Banding.IndexKeysComeOutAscending | src/index.mjs:53 | whole-minute interval keys (array indices) come out strictly ascending, whatever order they were given in |
| Banding.OtherKeysKeepInsertionOrder | src/index.mjs:53 | keys that are not array indices keep insertion order |
| Banding.PolygonsFor | src/index.mjs:52-60 | the reduce keeps, in key order, exactly the keys whose band has at least 3 points; each feature's time is its key and its region is the hull of that key's band |
| Banding.BandPolygons | src/index.mjs:47-60 | one feature per distinct interval with at least 3 band points, and no other feature; its time is the interval and its region the hull of the interval's band |
| Isochrone.WholeMinuteBandsLargestFirst | src/index.mjs:263-267 | with whole-minute intervals the OSRM features, after `reverse()`, are ordered largest interval first |
| Isochrone.FractionalIntervalsKeepInputOrder | src/index.mjs:263-264 | with no whole-minute interval the band polygons follow the first occurrences of the intervals as given, keeping those with at least 3 points (so the reversed OSRM features come in reverse input order) |
| Deintersect.ExclusiveRegions | src/index.mjs:202-214 | the closed form of the deintersection: region i minus the union of all later regions |
| Deintersect.ExclusiveRegionsDisjoint | src/index.mjs:202-214 | the deintersected regions are pairwise disjoint |
| Deintersect.ExclusiveRegionsCover | src/index.mjs:202-214 | the deintersected regions together cover exactly what the inputs covered |
| Deintersect.NestedRegionsGiveRings | src/index.mjs:202-214 | for nested regions the result is rings: region i minus region i + 1 |
| Deintersect.UnionPass | src/index.mjs:203-208 | after pass 1, feature i covers the union of features i.. n-1; the last is untouched; properties survive if they are restored or turf's union keeps its first argument's |
| Deintersect.DifferencePass | src/index.mjs:209-211 | after pass 2, feature i is the pass-1 feature i minus the pass-1 feature i + 1; the last is untouched |
| Deintersect.DeintersectFeatures | src/index.js:185-196 | both passes: the length is kept, the regions equal the closed form, the last feature is unchanged, and properties survive under the stated condition on turf |
| Isochrone.GatedDeintersect | src/index.mjs:234-236 | deintersects exactly when the flag is set and there are at least two features; otherwise the features pass through unchanged |
| Isochrone.ContourList | src/index.mjs:226-230 | one `{ time }` per interval, in order, duplicates included, when the intervals are an array; none otherwise |
| Isochrone.DeintersectResult | src/index.mjs:234-237 | a reply without `features` rejects exactly when `deintersect` is set, because only then is their length read; with the flag unset it is handed back as it is; a reply with features always resolves, through the gated deintersection |
| Isochrone.IsochroneValhalla | src/index.mjs:216-238 | sends the start point (lat from index 1, lon from index 0), costing 'auto', the contours and `polygons: true`; a failed request rejects; otherwise the reply settles as `DeintersectResult` says, keeping turf's union properties |
| Isochrone.ScriptIsochroneValhalla | src/index.js:168-198 | like the module's, at the given endpoint, with the properties restored after every union; a reply without `features` also rejects only when `deintersect` is set |
| Isochrone.IsoChrone | src/index.mjs:252-298 | the promise settles as `IsoChroneSettles` states: it stays pending exactly for a provider other than 'osrm' and 'valhalla'; on 'osrm' a grid failure or table failure rejects, and otherwise the reversed band polygons go through the gated deintersection; on 'valhalla' the promise always settles, as `IsochroneValhalla` says, and a reply without features resolves unchanged when `deintersect` is unset |
| Server.ParseCellSize | server/index.mjs:63-76 | 0.1 when absent or falsy; otherwise the parsed number, rejected when NaN or `<= 0` |
| Server.ParseCoordinates | server/index.mjs:78-95 | latitude is checked before longitude, and presence before parsing; the result is `[longitude, latitude]` |
| Server.CoordinatesRoundTrip | server/index.mjs:78-95 | coordinates written as numbers the engine reads back unchanged parse to themselves |
| Server.ParseDeintersect | server/index.mjs:97-112 | true exactly for one of the strings '1', 'true', 'yes', 'on' and '' (the empty string included); false for anything else, arrays included |
| Server.ParsePieces | server/index.mjs:122-135 | every piece parses, in order; otherwise the first NaN piece is reported with its 1-based position |
| Server.ParseIntervals | server/index.mjs:114-136 | a missing value and a non-string value are rejected first; otherwise one number per comma-separated piece, or the first NaN piece by position; at least one interval on success |
| Server.IntervalsRoundTrip | server/index.mjs:122-133 | intervals written comma-separated as strings the engine reads back unchanged parse to themselves, in order |
| Server.ParseRadius | server/index.mjs:138-151 | -1 when absent or falsy; otherwise the parsed number, rejected as NaN exactly when it is NaN and as too small exactly when it is below -1, and accepted in every other case (so -1 and 0 are accepted) |
| Server.QueryOptions | server/index.mjs:200-213 | the parsers run in the order of the object literal (coordinates, cell size, radius, intervals), and the first failure decides the error; success exactly when all four parse; the object has exactly the keys origin, deintersect, cellSize, provider, profile, radius and intervals; origin is a GeoJSON point `[lon, lat]`, cellSize and radius are the parsed numbers, provider defaults to 'valhalla' and profile to 'car'; the intervals become `{ interval }` objects |
| Server.QueryOptionsPassShapeChecks | server/index.mjs:200-215 | options built from a query that every parser accepts pass `run`'s shape checks; only a non-positive interval or an unknown provider can still reject them |
| Server.IntervalObjectsCheck | server/index.mjs:234-242 | the `{ interval }` objects built from parsed numbers can fail `run`'s interval checks only for not being positive |
| Server.CheckIntervals | server/index.mjs:235-242 | success exactly when every interval is a number that is not `<= 0`; otherwise the first bad element decides between 'not a number' and 'not positive' |
| Server.WithDefaults | server/index.mjs:244-253 | `_.defaults`: the caller's value unless it is absent or `undefined`, the default otherwise; other keys are kept |
| Server.Prepared | server/index.mjs:234-259 | the keys are exactly the caller's, the defaults' and `intervals`; the intervals are replaced by their numbers, the defaults are filled in, other keys are kept, and a radius `<= 0` becomes twice the longest interval |
| Server.CheckOrigin | server/index.mjs:270-284 | each origin error occurs exactly when its check is the first to fail: missing, coordinates not an array, not two elements, not two numbers; success exactly when none fails, and then the two numbers are returned |
| Server.Validate | server/index.mjs:230-284 | the checks of `run` as written, in their order: intervals, then provider, then origin; each error carries what the source's message names, the invalid provider being the defaulted one; on success the validated options, intervals and coordinates |
| Server.EmptyIntervalsGiveNegativeRadius | server/index.mjs:231-259 | any options with an empty intervals array, no radius, a known provider and a well-formed origin pass every check, and the default radius becomes negative infinity |
| Server.EmptyIntervalsExample | server/index.mjs:231-259 | the options `{ intervals: [], origin: { coordinates: [9, 52] } }` pass every check with a radius of negative infinity |
| Server.NoIntervalsRadius | server/index.mjs:244-259 | with no intervals and no radius given, the radius rule yields `2 * Math.max()`, negative infinity |
| Server.ValidateCorrected | server/index.mjs:230-284 | as `Validate`, but an empty intervals array is rejected; a defaulted radius is then positive unless an interval is NaN |
| Server.DefaultRadiusPositive | server/index.mjs:255-259 | for a non-empty list of intervals none of which is `<= 0`, twice the longest is NaN exactly when an interval is NaN, and positive otherwise |
| Server.ValidatedShape | server/index.mjs:261-284 | what `run` hands to `IsoChrone` has exactly two origin coordinates and a known provider |
| Server.Run | server/index.mjs:230-292 | `run` as written: it throws exactly when `Validate` fails, with that error, and `IsoChrone` is never called then; after validation the result is what `IsoChrone` gives for the two checked coordinates and the validated options, and it always settles, because the provider is known |
| Server.RunCorrected | server/index.mjs:230-292 | `run` with the corrected checks: it throws exactly when `ValidateCorrected` fails, an empty intervals array is refused with the empty-intervals error and nothing else is, and a validated call gives what `IsoChrone` gives for the checked origin and options, and settles |
| Server.Serve | server/index.mjs:286-292 | the end of `run`: a failed check is thrown; checked options with two origin coordinates and a known provider give exactly the settlement `IsoChrone` promises for that origin and those options, which is never pending |

## Left out

- HTTP is not modelled: status codes, content types, `JSON.parse` and timeouts. Each fetch is a function from URL or request to a reply or a failure, given as a parameter. The Valhalla request is kept as a structured value rather than the `JSON.stringify` text in the URL.
- `makeGrid` (turf's `destination`, `bbox` and `pointGrid`) is a parameter that yields a grid or fails.
- concaveman's concave hull is a parameter from points to a region. `rewind` only reorients rings, so it is the identity on regions and is left out.
- turf's `union` and `difference` are set union and set difference on regions. Which properties they put on the result is a parameter.
- Floating-point rounding is not modelled: a finite JavaScript number is an exact real here. So `interval * 60` (src/index.mjs:39) and `120 / 60 * maxMinutes` (server/index.mjs:258) never round and never overflow to Infinity. A travel time equal to a rounded-up product is in the band in JavaScript but not in the model.
- Isochrone.IsoChrone: a settled result is modelled as its feature list only. The `FeatureCollection` wrapper of the OSRM path (src/index.mjs:266) and the other fields of Valhalla's reply (src/index.mjs:237) are dropped.
- Isochrone.IsoChrone: the model ignores `concavity`, `lengthThreshold`, `radius`, `cellSize` and `unit`. They only reach `makeGrid` and concaveman, which are parameters.
- The `IsoChrone` of src/index.js is not modelled as a whole. Its OSRM path calls the external `turf-deintersect` package before reversing, and can call a caller-supplied `options.osrm.table`. Neither is part of this model. Its URL loop, merge, banding and Valhalla path are modelled.
- The server's status and provider-list endpoints, the `runningTasks` and `totalTasks` counters, the port and the express wiring are left out. They have no logic beyond I/O.
- Isochrone.IsochroneOsrm: the table service is a pure function of the URL, so the same URL always gives the same reply.
- Banding.GroupByInterval: interval keys are compared as numbers. JavaScript keys objects by `String(interval)`, which is injective on the numbers except that 0 and -0 share a key. The server never lets through a non-positive interval.
- Deintersect.DeintersectFeatures: properties are proved to survive only under a condition on turf's property choice. The `{ ...properties }` copy in src/index.mjs only copies what turf's union returned.
- Deintersect.DeintersectFeatures: turf's `difference` returns `null` when nothing is left, so the feature becomes `null` and loses its `time`. The `null` is returned in the feature list as it is. Here an empty difference is a feature with an empty region that keeps its properties.
- Isochrone.IsoChrone: concaveman and turf's `polygon` throw on a degenerate hull, one with fewer than four positions, and that rejects the promise. Here the hull is a total function, so the OSRM path resolves whenever the table does.
- Isochrone.IsochroneOsrm: a parsed table response always has `sources` and `destinations` lists. An Ok reply without them makes src/index.mjs:179 (for `sources`, only while none have been collected) or :189 throw a TypeError, which rejects. That reply cannot be written in the model.
- Isochrone.ScriptIsochroneOsrm: the same holds for the Ok replies of the script's loop.

## Findings

| source | as written | input that shows it | evidently intended | confidence | as-written member | corrected member |
|---|---|---|---|---|---|---|
| server/index.mjs:231-259 | `run` checks that the intervals are an array of positive numbers but accepts an empty array; the default radius is then `120 / 60 * Math.max()`, which is negative infinity | a POST body `{ "intervals": [], "origin": { "coordinates": [9, 52] } }` | reject an empty intervals list, so that the default radius is twice an existing longest interval and positive | not executed | Server.Validate (counterexample: Server.EmptyIntervalsExample, generalised by Server.EmptyIntervalsGiveNegativeRadius) | Server.ValidateCorrected, used by Server.RunCorrected |

Behaviour of the code worth knowing:

- The OSRM path of `IsoChrone` never checks the merged table's `code`. A non-Ok answer still produces bands, from whatever was merged before it.
- In src/index.mjs the OSRM polygons are reversed before deintersection. After that the last feature, the one left whole, is the first band in `Object.keys` order. That band is guaranteed to be the smallest only when every interval is a whole minute; otherwise it is the first key in `Object.keys` order.
- An unknown provider leaves the `IsoChrone` promise pending forever. Only the server's provider check prevents this.

=== FILE: banding.dfy ===
/** Classifying destinations into cumulative reachability bands and turning the bands
    into polygon features: `groupByInterval`, `makePolygon` and `makePolygons`, which
    src/index.mjs and src/index.js define identically. The concave hull (concaveman)
    is a parameter. */
module Banding {
  import opened Wrappers
  import opened Js
  import opened Geo
  import opened TableMerge

  /** A band yields a polygon only from this many points on. */
  const MinHullPoints: nat := 3

  /** The largest array index JavaScript orders numerically among an object's keys. */
  const MaxArrayIndex: real := 4294967294.0

  // ---------------------------------------------------------------------------
  // Bands

  /** `travelTime[k] !== null && travelTime[k] <= interval * 60`; an index past the end of
      the row reads `undefined`, which is not null but fails the comparison. */
  predicate Reachable(row: seq<Duration>, k: nat, interval: Num) {
    k < |row| && row[k].Some? && Le(Fin(row[k].value), Scale(interval, 60.0))
  }

  /** The locations of the destinations reachable within `interval` minutes, in
      destination order. */
  function Band(dests: seq<Waypoint>, row: seq<Duration>, interval: Num): (b: seq<Position>)
    ensures |b| <= |dests|
  {
    if dests == [] then []
    else
      var k := |dests| - 1;
      Band(dests[..k], row, interval) + (if Reachable(row, k, interval) then [dests[k].location] else [])
  }

  /** The locations of all destinations. */
  function Locations(dests: seq<Waypoint>): (ls: seq<Position>)
    ensures |ls| == |dests|
    ensures forall k :: 0 <= k < |dests| ==> ls[k] == dests[k].location
  {
    if dests == [] then [] else Locations(dests[..|dests| - 1]) + [dests[|dests| - 1].location]
  }

  /** `a` is `b` with some elements left out, the rest kept in order. */
  predicate IsSubsequence<T(==)>(a: seq<T>, b: seq<T>)
    decreases |b|
  {
    || a == []
    || (&& b != []
        && ((a[|a| - 1] == b[|b| - 1] && IsSubsequence(a[..|a| - 1], b[..|b| - 1]))
            || IsSubsequence(a, b[..|b| - 1])))
  }

  lemma SubsequenceExtend<T>(a: seq<T>, b: seq<T>, x: T)
    requires IsSubsequence(a, b)
    ensures IsSubsequence(a, b + [x])
    ensures IsSubsequence(a + [x], b + [x])
  {
    assert (b + [x])[..|b|] == b;
    assert (a + [x])[..|a|] == a;
  }

  /** A location is in the band exactly when some destination reachable within the
      interval has that location. */
  lemma {:induction false} BandMembership(dests: seq<Waypoint>, row: seq<Duration>, interval: Num, x: Position)
    ensures x in Band(dests, row, interval) <==>
      exists k :: 0 <= k < |dests| && Reachable(row, k, interval) && dests[k].location == x
  {
    if dests != [] {
      var n := |dests| - 1;
      BandMembership(dests[..n], row, interval, x);
      if exists k :: 0 <= k < |dests| && Reachable(row, k, interval) && dests[k].location == x {
        var k :| 0 <= k < |dests| && Reachable(row, k, interval) && dests[k].location == x;
        if k < n {
          assert dests[..n][k] == dests[k];
        }
      }
      if x in Band(dests[..n], row, interval) {
        var k :| 0 <= k < n && Reachable(row, k, interval) && dests[..n][k] == dests[k] && dests[..n][k].location == x;
      }
    }
  }

  /** A band keeps the destination order: it is a subsequence of all locations. */
  lemma {:induction false} BandKeepsOrder(dests: seq<Waypoint>, row: seq<Duration>, interval: Num)
    ensures IsSubsequence(Band(dests, row, interval), Locations(dests))
  {
    if dests != [] {
      var n := |dests| - 1;
      BandKeepsOrder(dests[..n], row, interval);
      SubsequenceExtend(Band(dests[..n], row, interval), Locations(dests[..n]), dests[n].location);
      assert Band(dests[..n], row, interval) + [] == Band(dests[..n], row, interval);
    }
  }

  /** Bands are cumulative: for intervals t1 <= t2 the band of t1 is a subsequence of the
      band of t2. */
  lemma {:induction false} BandsNest(dests: seq<Waypoint>, row: seq<Duration>, t1: Num, t2: Num)
    requires Le(t1, t2)
    ensures IsSubsequence(Band(dests, row, t1), Band(dests, row, t2))
  {
    if dests != [] {
      var n := |dests| - 1;
      BandsNest(dests[..n], row, t1, t2);
      var b1 := Band(dests[..n], row, t1);
      var b2 := Band(dests[..n], row, t2);
      var x := dests[n].location;
      if Reachable(row, n, t1) {
        ScaleMonotone(t1, t2, 60.0);
        LeTransitive(Fin(row[n].value), Scale(t1, 60.0), Scale(t2, 60.0));
        SubsequenceExtend(b1, b2, x);
      } else if Reachable(row, n, t2) {
        SubsequenceExtend(b1, b2, x);
        assert b1 + [] == b1;
      } else {
        assert b1 + [] == b1 && b2 + [] == b2;
      }
    }
  }

  // ---------------------------------------------------------------------------
  // groupByInterval

  /** `groups[interval] = points`: one entry per distinct interval, keyed by the
      interval's string form, which distinct numbers never share. */
  datatype Group = Group(interval: Num, points: seq<Position>)

  function Keys(groups: seq<Group>): (ks: seq<Num>)
    ensures |ks| == |groups|
    ensures forall i :: 0 <= i < |groups| ==> ks[i] == groups[i].interval
  {
    if groups == [] then [] else Keys(groups[..|groups| - 1]) + [groups[|groups| - 1].interval]
  }

  predicate Distinct<T(==)>(xs: seq<T>) {
    forall i, j :: 0 <= i < j < |xs| ==> xs[i] != xs[j]
  }

  /** The values of `xs` at their first occurrence, in order. */
  function Dedup(xs: seq<Num>): (d: seq<Num>)
    ensures Distinct(d)
    ensures forall x :: x in d <==> x in xs
  {
    if xs == [] then []
    else
      var rest := Dedup(xs[..|xs| - 1]);
      assert forall x :: x in xs <==> x in xs[..|xs| - 1] || x == xs[|xs| - 1] by {
        assert xs == xs[..|xs| - 1] + [xs[|xs| - 1]];
      }
      if xs[|xs| - 1] in rest then rest else rest + [xs[|xs| - 1]]
  }

  /** Where `key` sits among the keys. */
  function KeyIndex(groups: seq<Group>, key: Num): (i: nat)
    requires key in Keys(groups)
    ensures i < |groups| && groups[i].interval == key
  {
    var n := |groups| - 1;
    assert Keys(groups) == Keys(groups[..n]) + [groups[n].interval];
    if groups[n].interval == key then n else KeyIndex(groups[..n], key)
  }

  /** `groups[key] = points` on an object whose keys are distinct: an existing key keeps
      its position, a new key goes last. */
  function Assign(groups: seq<Group>, key: Num, points: seq<Position>): (r: seq<Group>)
    requires Distinct(Keys(groups))
    ensures Keys(r) == if key in Keys(groups) then Keys(groups) else Keys(groups) + [key]
    ensures forall i :: 0 <= i < |groups| && groups[i].interval != key ==> r[i] == groups[i]
    ensures forall i :: 0 <= i < |r| && r[i].interval == key ==> r[i].points == points
  {
    if key in Keys(groups) then
      var k := KeyIndex(groups, key);
      var r := groups[k := Group(key, points)];
      assert Keys(r) == Keys(groups);
      assert forall i :: 0 <= i < |r| && r[i].interval == key ==> i == k;
      r
    else
      var r := groups + [Group(key, points)];
      assert forall i :: 0 <= i < |groups| ==> groups[i].interval != key by {
        forall i | 0 <= i < |groups| ensures groups[i].interval != key {
          assert Keys(groups)[i] in Keys(groups);
        }
      }
      r
  }

  /** `groupByInterval(destinations, intervals, travelTime)`. */
  function GroupByInterval(dests: seq<Waypoint>, intervals: seq<Num>, row: seq<Duration>): (groups: seq<Group>)
    ensures Keys(groups) == Dedup(intervals)
    ensures forall i :: 0 <= i < |groups| ==> groups[i].points == Band(dests, row, groups[i].interval)
  {
    if intervals == [] then []
    else
      var n := |intervals| - 1;
      var prev := GroupByInterval(dests, intervals[..n], row);
      AssignKeepsBands(prev, dests, row, intervals[n]);
      Assign(prev, intervals[n], Band(dests, row, intervals[n]))
  }

  /** Storing the band of `key` under `key` keeps every stored band that of its key. */
  lemma AssignKeepsBands(groups: seq<Group>, dests: seq<Waypoint>, row: seq<Duration>, key: Num)
    requires Distinct(Keys(groups))
    requires forall i :: 0 <= i < |groups| ==> groups[i].points == Band(dests, row, groups[i].interval)
    ensures var r := Assign(groups, key, Band(dests, row, key));
      forall i :: 0 <= i < |r| ==> r[i].points == Band(dests, row, r[i].interval)
  {
    var r := Assign(groups, key, Band(dests, row, key));
    forall i | 0 <= i < |r|
      ensures r[i].points == Band(dests, row, r[i].interval)
    {
      if r[i].interval != key {
        assert Keys(r)[i] == r[i].interval;
      }
    }
  }

  /** The points stored under `key`, or none. */
  function PointsOf(groups: seq<Group>, key: Num): seq<Position> {
    if groups == [] then []
    else if groups[|groups| - 1].interval == key then groups[|groups| - 1].points
    else PointsOf(groups[..|groups| - 1], key)
  }

  lemma {:induction false} PointsOfFound(groups: seq<Group>, i: nat)
    requires i < |groups| && Distinct(Keys(groups))
    ensures PointsOf(groups, groups[i].interval) == groups[i].points
  {
    var n := |groups| - 1;
    if i < n {
      assert Keys(groups)[i] != Keys(groups)[n];
      assert Keys(groups[..n]) == Keys(groups)[..n];
      assert groups[..n][i] == groups[i];
      PointsOfFound(groups[..n], i);
    }
  }

  // ---------------------------------------------------------------------------
  // Object.keys order

  /** Keys JavaScript lists first, in ascending numeric order: canonical array indices. */
  predicate IsIndexKey(n: Num) {
    n.Fin? && n.value == n.value.Floor as real && 0.0 <= n.value <= MaxArrayIndex
  }

  function IndexKeys(ks: seq<Num>): (r: seq<Num>)
    ensures forall x :: x in r <==> x in ks && IsIndexKey(x)
    ensures multiset(r) <= multiset(ks)
    ensures Distinct(ks) ==> Distinct(r)
  {
    if ks == [] then []
    else
      var n := |ks| - 1;
      assert ks == ks[..n] + [ks[n]];
      var rest := IndexKeys(ks[..n]);
      if IsIndexKey(ks[n]) then
        assert Distinct(ks) ==> ks[n] !in ks[..n];
        rest + [ks[n]]
      else rest
  }

  function OtherKeys(ks: seq<Num>): (r: seq<Num>)
    ensures forall x :: x in r <==> x in ks && !IsIndexKey(x)
  {
    if ks == [] then []
    else
      var n := |ks| - 1;
      assert ks == ks[..n] + [ks[n]];
      OtherKeys(ks[..n]) + (if IsIndexKey(ks[n]) then [] else [ks[n]])
  }

  predicate StrictlyAscending(s: seq<Num>) {
    forall i, j :: 0 <= i < j < |s| ==> Lt(s[i], s[j])
  }

  predicate AllFinite(s: seq<Num>) {
    forall i :: 0 <= i < |s| ==> s[i].Fin?
  }

  /** Insertion into an ascending list. */
  function Insert(x: Num, s: seq<Num>): (r: seq<Num>)
    ensures multiset(r) == multiset(s) + multiset{x}
  {
    if s == [] then [x]
    else if Le(x, s[0]) then
      assert s == [s[0]] + s[1..];
      [x] + s
    else
      assert s == [s[0]] + s[1..];
      [s[0]] + Insert(x, s[1..])
  }

  lemma InsertInFront(x: Num, s: seq<Num>)
    requires x.Fin? && AllFinite(s) && StrictlyAscending(s) && s != []
    requires Le(x, s[0]) && x != s[0]
    ensures StrictlyAscending([x] + s)
  {
    forall j | 0 <= j < |s|
      ensures Lt(x, s[j])
    {
      if j > 0 {
        LeTransitive(x, s[0], s[j]);
      }
    }
  }

  lemma InsertBehind(x: Num, s: seq<Num>, t: seq<Num>)
    requires x.Fin? && AllFinite(s) && StrictlyAscending(s) && s != []
    requires !Le(x, s[0])
    requires StrictlyAscending(t)
    requires forall y :: y in t ==> y == x || y in s[1..]
    ensures StrictlyAscending([s[0]] + t)
  {
    var r := [s[0]] + t;
    forall j | 1 <= j < |r|
      ensures Lt(s[0], r[j])
    {
      assert r[j] in t;
    }
  }

  /** Inserting a new finite number into a strictly ascending list of finite numbers
      keeps it strictly ascending. */
  lemma {:induction false} InsertAscending(x: Num, s: seq<Num>)
    requires x.Fin? && AllFinite(s) && StrictlyAscending(s) && x !in s
    ensures StrictlyAscending(Insert(x, s)) && AllFinite(Insert(x, s))
  {
    if s == [] {
    } else if Le(x, s[0]) {
      InsertInFront(x, s);
    } else {
      var t := Insert(x, s[1..]);
      InsertAscending(x, s[1..]);
      assert forall y :: y in t ==> y == x || y in s[1..] by {
        forall y | y in t ensures y == x || y in s[1..] {
          assert y in multiset(t);
        }
      }
      InsertBehind(x, s, t);
    }
  }

  /** Ascending order of a list of finite numbers. */
  function SortAscending(s: seq<Num>): (r: seq<Num>)
    ensures multiset(r) == multiset(s)
  {
    if s == [] then []
    else
      var n := |s| - 1;
      assert s == s[..n] + [s[n]];
      Insert(s[n], SortAscending(s[..n]))
  }

  /** Sorting distinct finite numbers gives a strictly ascending list. */
  lemma {:induction false} SortAscendingSorts(s: seq<Num>)
    requires AllFinite(s) && Distinct(s)
    ensures StrictlyAscending(SortAscending(s)) && AllFinite(SortAscending(s))
  {
    if s != [] {
      var n := |s| - 1;
      assert s == s[..n] + [s[n]];
      SortAscendingSorts(s[..n]);
      var r := SortAscending(s[..n]);
      assert s[n] !in s[..n];
      assert s[n] !in r by { assert s[n] !in multiset(r); }
      InsertAscending(s[n], r);
    }
  }

  /** `Object.keys` on an object whose keys were added in the order `ks`: array-index keys
      first in ascending order, then the remaining keys in insertion order. */
  function PropertyOrder(ks: seq<Num>): seq<Num> {
    SortAscending(IndexKeys(ks)) + OtherKeys(ks)
  }

  /** `Object.keys` lists every key once: the order is a permutation of the insertion order. */
  lemma PropertyOrderIsPermutation(ks: seq<Num>)
    ensures multiset(PropertyOrder(ks)) == multiset(ks)
  {
    KeysSplitPermutation(ks);
    assert multiset(PropertyOrder(ks)) == multiset(SortAscending(IndexKeys(ks))) + multiset(OtherKeys(ks));
  }

  /** Every key is either an array index or not: the two lists together hold each key once. */
  lemma {:induction false} KeysSplitPermutation(ks: seq<Num>)
    ensures multiset(IndexKeys(ks)) + multiset(OtherKeys(ks)) == multiset(ks)
  {
    if ks != [] {
      var n := |ks| - 1;
      assert ks == ks[..n] + [ks[n]];
      KeysSplitPermutation(ks[..n]);
      if IsIndexKey(ks[n]) {
        assert IndexKeys(ks) == IndexKeys(ks[..n]) + [ks[n]];
        assert OtherKeys(ks) == OtherKeys(ks[..n]);
      } else {
        assert IndexKeys(ks) == IndexKeys(ks[..n]);
        assert OtherKeys(ks) == OtherKeys(ks[..n]) + [ks[n]];
      }
    }
  }

  /** When every key is an array index (whole minutes), `Object.keys` sorts them
      ascending, whatever order the intervals were given in. */
  lemma IndexKeysComeOutAscending(ks: seq<Num>)
    requires Distinct(ks)
    requires forall i :: 0 <= i < |ks| ==> IsIndexKey(ks[i])
    ensures StrictlyAscending(PropertyOrder(ks))
  {
    var ix := IndexKeys(ks);
    assert AllFinite(ix) by {
      forall i | 0 <= i < |ix| ensures ix[i].Fin? {
        assert ix[i] in ix;
      }
    }
    OtherKeysOfIndices(ks);
    SortAscendingSorts(ix);
    assert PropertyOrder(ks) == SortAscending(ix) + [];
  }

  lemma {:induction false} OtherKeysOfIndices(ks: seq<Num>)
    requires forall i :: 0 <= i < |ks| ==> IsIndexKey(ks[i])
    ensures OtherKeys(ks) == []
  {
    if ks != [] {
      OtherKeysOfIndices(ks[..|ks| - 1]);
    }
  }

  lemma {:induction false} OtherKeysOfOthers(ks: seq<Num>)
    requires forall i :: 0 <= i < |ks| ==> !IsIndexKey(ks[i])
    ensures OtherKeys(ks) == ks
  {
    if ks != [] {
      var n := |ks| - 1;
      OtherKeysOfOthers(ks[..n]);
      assert ks == ks[..n] + [ks[n]];
    }
  }

  /** When no key is an array index, `Object.keys` keeps the insertion order. */
  lemma OtherKeysKeepInsertionOrder(ks: seq<Num>)
    requires forall i :: 0 <= i < |ks| ==> !IsIndexKey(ks[i])
    ensures PropertyOrder(ks) == ks
  {
    OtherKeysOfOthers(ks);
    assert IndexKeys(ks) == [];
    assert SortAscending(IndexKeys(ks)) == [];
  }

  // ---------------------------------------------------------------------------
  // makePolygons

  /** The `time` of each feature, in order. */
  function Times<P>(fs: seq<Feature<P, Num>>): seq<Num> {
    if fs == [] then [] else Times(fs[..|fs| - 1]) + [fs[|fs| - 1].props]
  }

  /** The keys whose stored band has enough points for a hull. */
  function HullKeys(order: seq<Num>, groups: seq<Group>): seq<Num> {
    if order == [] then []
    else
      var n := |order| - 1;
      HullKeys(order[..n], groups) + (if |PointsOf(groups, order[n])| >= MinHullPoints then [order[n]] else [])
  }

  /** The reduce of `makePolygons` over the keys in the order `order`. */
  function PolygonsFor<P>(order: seq<Num>, groups: seq<Group>, hull: seq<Position> -> set<P>)
    : (fs: seq<Feature<P, Num>>)
    ensures Times(fs) == HullKeys(order, groups)
    ensures forall i :: 0 <= i < |fs| ==>
      && fs[i].props in order
      && |PointsOf(groups, fs[i].props)| >= MinHullPoints
      && fs[i].region == hull(PointsOf(groups, fs[i].props))
  {
    if order == [] then []
    else
      var n := |order| - 1;
      var key := order[n];
      var points := PointsOf(groups, key);
      var acc := PolygonsFor(order[..n], groups, hull);
      if |points| >= MinHullPoints then acc + [Feature(hull(points), key)] else acc
  }

  /** `makePolygons(pointsByInterval, options)`. */
  function MakePolygons<P>(groups: seq<Group>, hull: seq<Position> -> set<P>): seq<Feature<P, Num>> {
    PolygonsFor(PropertyOrder(Keys(groups)), groups, hull)
  }

  lemma {:induction false} HullKeysMembership(order: seq<Num>, groups: seq<Group>, key: Num)
    ensures key in HullKeys(order, groups) <==> key in order && |PointsOf(groups, key)| >= MinHullPoints
  {
    if order != [] {
      var n := |order| - 1;
      assert order == order[..n] + [order[n]];
      HullKeysMembership(order[..n], groups, key);
    }
  }

  lemma TimesMembership<P>(fs: seq<Feature<P, Num>>, key: Num)
    ensures key in Times(fs) <==> exists i :: 0 <= i < |fs| && fs[i].props == key
  {
    TimesAt(fs);
    if key in Times(fs) {
      var i :| 0 <= i < |fs| && Times(fs)[i] == key;
      assert fs[i].props == key;
    }
  }

  /** `Times(fs)` lists the time of each feature, position by position. */
  lemma {:induction false} TimesAt<P>(fs: seq<Feature<P, Num>>)
    ensures |Times(fs)| == |fs|
    ensures forall i :: 0 <= i < |fs| ==> Times(fs)[i] == fs[i].props
  {
    if fs != [] {
      var n := |fs| - 1;
      TimesAt(fs[..n]);
      assert forall i :: 0 <= i < n ==> fs[..n][i] == fs[i];
    }
  }

  /** The keys of the grouping, in `Object.keys` order, are the distinct intervals, and
      each stores the band of its interval. */
  lemma GroupLookup(dests: seq<Waypoint>, intervals: seq<Num>, row: seq<Duration>)
    ensures var groups := GroupByInterval(dests, intervals, row);
      && (forall t :: t in PropertyOrder(Keys(groups)) <==> t in intervals)
      && (forall t :: t in intervals ==> PointsOf(groups, t) == Band(dests, row, t))
  {
    var groups := GroupByInterval(dests, intervals, row);
    var ks := Keys(groups);
    assert ks == Dedup(intervals);
    PropertyOrderMembers(ks);
    forall t | t in intervals
      ensures PointsOf(groups, t) == Band(dests, row, t)
    {
      assert t in ks;
      var i := KeyIndex(groups, t);
      PointsOfFound(groups, i);
    }
  }

  /** `Object.keys` neither loses nor invents a key. */
  lemma PropertyOrderMembers(ks: seq<Num>)
    ensures forall t :: t in PropertyOrder(ks) <==> t in ks
  {
    PropertyOrderIsPermutation(ks);
    forall t
      ensures t in PropertyOrder(ks) <==> t in ks
    {
      assert t in PropertyOrder(ks) <==> t in multiset(PropertyOrder(ks));
      assert t in ks <==> t in multiset(ks);
    }
  }

  /** The polygons of the banding step: one feature per distinct interval whose band
      has at least three points, in `Object.keys` order of the intervals; its `time` is the
      interval and its region the hull of that interval's band. No other feature exists. */
  lemma BandPolygons<P>(dests: seq<Waypoint>, row: seq<Duration>, intervals: seq<Num>, hull: seq<Position> -> set<P>)
    ensures var groups := GroupByInterval(dests, intervals, row);
      var fs := MakePolygons(groups, hull);
      && Times(fs) == HullKeys(PropertyOrder(Dedup(intervals)), groups)
      && (forall i :: 0 <= i < |fs| ==>
            && fs[i].props in intervals
            && |Band(dests, row, fs[i].props)| >= MinHullPoints
            && fs[i].region == hull(Band(dests, row, fs[i].props)))
      && (forall t :: t in intervals && |Band(dests, row, t)| >= MinHullPoints ==>
            exists i :: 0 <= i < |fs| && fs[i].props == t)
  {
    var groups := GroupByInterval(dests, intervals, row);
    var order := PropertyOrder(Keys(groups));
    var fs := MakePolygons(groups, hull);
    GroupLookup(dests, intervals, row);
    forall t | t in intervals && |Band(dests, row, t)| >= MinHullPoints
      ensures exists i :: 0 <= i < |fs| && fs[i].props == t
    {
      HullKeysMembership(order, groups, t);
      TimesMembership(fs, t);
    }
  }
}

=== FILE: deintersect.dfy ===
/** The two-pass deintersection of a list of polygon features:
    `deintersectGeoJSONFeatures` in src/index.mjs, and the inline copy in
    `isochroneValhalla` of src/index.js, which differs only in restoring each feature's
    properties after every union. Pass 1 replaces feature i by its union with every later
    feature; pass 2 replaces feature i by itself minus feature i + 1. */
module Deintersect {
  import opened Geo

  /** The union of `rs[lo..hi]`. */
  function RangeUnion<P>(rs: seq<set<P>>, lo: nat, hi: nat): set<P>
    requires lo <= hi <= |rs|
    decreases hi - lo
  {
    if lo == hi then {} else RangeUnion(rs, lo, hi - 1) + rs[hi - 1]
  }

  /** The union of `rs[i..]`. */
  function SuffixUnion<P>(rs: seq<set<P>>, i: nat): set<P>
    requires i <= |rs|
  {
    RangeUnion(rs, i, |rs|)
  }

  lemma {:induction false} SuffixUnionStep<P>(rs: seq<set<P>>, i: nat)
    requires i < |rs|
    ensures SuffixUnion(rs, i) == rs[i] + SuffixUnion(rs, i + 1)
  {
    RangeUnionFront(rs, i, |rs|);
  }

  lemma {:induction false} RangeUnionFront<P>(rs: seq<set<P>>, lo: nat, hi: nat)
    requires lo < hi <= |rs|
    ensures RangeUnion(rs, lo, hi) == rs[lo] + RangeUnion(rs, lo + 1, hi)
  {
    if hi - 1 > lo {
      RangeUnionFront(rs, lo, hi - 1);
    }
  }

  /** Every point of the union lies in some member, and every member is in the union. */
  lemma {:induction false} SuffixUnionMembers<P>(rs: seq<set<P>>, i: nat, x: P)
    requires i <= |rs|
    ensures x in SuffixUnion(rs, i) <==> exists k :: i <= k < |rs| && x in rs[k]
    decreases |rs| - i
  {
    if i < |rs| {
      SuffixUnionStep(rs, i);
      SuffixUnionMembers(rs, i + 1, x);
    }
  }

  /** What deintersection makes of the regions: region i minus the union of all later
      regions; the last region stays as it is. */
  function ExclusiveRegions<P>(rs: seq<set<P>>): (out: seq<set<P>>)
    ensures |out| == |rs|
    ensures forall i :: 0 <= i < |rs| ==> out[i] == rs[i] - SuffixUnion(rs, i + 1)
  {
    seq(|rs|, i requires 0 <= i < |rs| => rs[i] - SuffixUnion(rs, i + 1))
  }

  /** The resulting regions are pairwise disjoint. */
  lemma ExclusiveRegionsDisjoint<P>(rs: seq<set<P>>)
    ensures forall i, j :: 0 <= i < j < |rs| ==> ExclusiveRegions(rs)[i] !! ExclusiveRegions(rs)[j]
  {
    var out := ExclusiveRegions(rs);
    forall i, j | 0 <= i < j < |rs|
      ensures out[i] !! out[j]
    {
      forall x | x in out[j]
        ensures x !in out[i]
      {
        SuffixUnionMembers(rs, i + 1, x);
      }
    }
  }

  /** Together the resulting regions cover exactly what the input regions covered. */
  lemma {:induction false} ExclusiveRegionsCover<P>(rs: seq<set<P>>, i: nat)
    requires i <= |rs|
    ensures SuffixUnion(ExclusiveRegions(rs), i) == SuffixUnion(rs, i)
    decreases |rs| - i
  {
    if i < |rs| {
      ExclusiveRegionsCover(rs, i + 1);
      SuffixUnionStep(rs, i);
      SuffixUnionStep(ExclusiveRegions(rs), i);
    }
  }

  /** For nested regions, each one containing the next, the result is a set of rings:
      region i minus region i + 1. */
  lemma NestedRegionsGiveRings<P>(rs: seq<set<P>>)
    requires forall i :: 0 <= i < |rs| - 1 ==> rs[i + 1] <= rs[i]
    ensures forall i :: 0 <= i < |rs| - 1 ==> ExclusiveRegions(rs)[i] == rs[i] - rs[i + 1]
  {
    forall j | 1 <= j < |rs|
      ensures SuffixUnion(rs, j) == rs[j]
    {
      forall x | x in SuffixUnion(rs, j)
        ensures x in rs[j]
      {
        SuffixUnionMembers(rs, j, x);
        var k :| j <= k < |rs| && x in rs[k];
        NestedContains(rs, j, k);
      }
      SuffixUnionStep(rs, j);
    }
  }

  lemma {:induction false} NestedContains<P>(rs: seq<set<P>>, i: nat, k: nat)
    requires forall i :: 0 <= i < |rs| - 1 ==> rs[i + 1] <= rs[i]
    requires i <= k < |rs|
    ensures rs[k] <= rs[i]
    decreases k - i
  {
    if i < k {
      NestedContains(rs, i + 1, k);
    }
  }

  // ---------------------------------------------------------------------------
  // The passes

  /** A property function that returns its first argument. */
  ghost predicate KeepsFirst<Pr(!new)>(f: (Pr, Pr) -> Pr) {
    forall a, b :: f(a, b) == a
  }

  /** Pass 1: for i from 0 to n - 2 and j from i to n - 2, feature i becomes the union of
      itself and feature j + 1. With `restoreProps` (src/index.js) the properties feature i
      had before each union are put back; without it (src/index.mjs) feature i keeps what
      turf's union returned. */
  method UnionPass<P, Pr(!new)>(fs: seq<Feature<P, Pr>>, turf: Turf<Pr>, restoreProps: bool)
    returns (out: seq<Feature<P, Pr>>)
    ensures |out| == |fs|
    ensures forall i :: 0 <= i < |fs| ==> out[i].region == SuffixUnion(Regions(fs), i)
    ensures restoreProps || KeepsFirst(turf.unionProps) ==>
      forall i :: 0 <= i < |fs| ==> out[i].props == fs[i].props
    ensures |fs| > 0 ==> out[|fs| - 1] == fs[|fs| - 1]
  {
    ghost var keep := restoreProps || KeepsFirst(turf.unionProps);
    out := fs;
    var i := 0;
    while i < |out| - 1
      invariant UnionedUpTo(out, fs, i, keep)
    {
      var u := UnionLater(out, i, turf, restoreProps);
      UnionedOneMore(out, fs, i, keep, u);
      out := out[i := u];
      i := i + 1;
    }
    UnionedAll(out, fs, i, keep);
  }

  /** The state of pass 1 after i steps: features before i hold their suffix unions,
      the rest are untouched. */
  ghost predicate UnionedUpTo<P, Pr>(out: seq<Feature<P, Pr>>, fs: seq<Feature<P, Pr>>, i: nat, keep: bool)
  {
    && |out| == |fs|
    && i <= |fs|
    && (|fs| > 0 ==> i <= |fs| - 1)
    && (forall k :: 0 <= k < i ==> out[k].region == SuffixUnion(Regions(fs), k))
    && (forall k :: i <= k < |fs| ==> out[k] == fs[k])
    && (keep ==> forall k :: 0 <= k < |fs| ==> out[k].props == fs[k].props)
  }

  lemma UnionedOneMore<P, Pr>(out: seq<Feature<P, Pr>>, fs: seq<Feature<P, Pr>>, i: nat, keep: bool, u: Feature<P, Pr>)
    requires UnionedUpTo(out, fs, i, keep) && i < |out| - 1
    requires u.region == out[i].region + RangeUnion(Regions(out), i + 1, |out|)
    requires keep ==> u.props == out[i].props
    ensures UnionedUpTo(out[i := u], fs, i + 1, keep)
  {
    UnionLaterIsSuffixUnion(out, fs, i, u.region);
    var next := out[i := u];
    var rs := Regions(fs);
    forall k | 0 <= k < i + 1
      ensures next[k].region == SuffixUnion(rs, k)
    {
      if k < i {
        assert next[k] == out[k];
      }
    }
    forall k | i + 1 <= k < |fs|
      ensures next[k] == fs[k]
    {
      assert next[k] == out[k];
    }
    if keep {
      forall k | 0 <= k < |fs|
        ensures next[k].props == fs[k].props
      {
        if k != i {
          assert next[k] == out[k];
        }
      }
    }
  }

  lemma UnionedAll<P, Pr>(out: seq<Feature<P, Pr>>, fs: seq<Feature<P, Pr>>, i: nat, keep: bool)
    requires UnionedUpTo(out, fs, i, keep) && !(i < |out| - 1)
    ensures forall k :: 0 <= k < |fs| ==> out[k].region == SuffixUnion(Regions(fs), k)
    ensures keep ==> forall k :: 0 <= k < |fs| ==> out[k].props == fs[k].props
    ensures |fs| > 0 ==> out[|fs| - 1] == fs[|fs| - 1]
  {
    if |fs| > 0 {
      var rs := Regions(fs);
      var last := |fs| - 1;
      assert i == last;
      LastSuffixUnion(rs);
      forall k | 0 <= k < |fs|
        ensures out[k].region == SuffixUnion(rs, k)
      {
        if k == last {
          assert out[k] == fs[k];
        }
      }
    }
  }

  /** The suffix union from the last index is the last region. */
  lemma LastSuffixUnion<P>(rs: seq<set<P>>)
    requires |rs| > 0
    ensures SuffixUnion(rs, |rs| - 1) == rs[|rs| - 1]
  {
    assert RangeUnion(rs, |rs| - 1, |rs| - 1) == {};
  }

  /** The inner loop of pass 1: feature i united with every later feature in turn. */
  method UnionLater<P, Pr(!new)>(fs: seq<Feature<P, Pr>>, i: nat, turf: Turf<Pr>, restoreProps: bool)
    returns (g: Feature<P, Pr>)
    requires i < |fs|
    ensures g.region == fs[i].region + RangeUnion(Regions(fs), i + 1, |fs|)
    ensures restoreProps || KeepsFirst(turf.unionProps) ==> g.props == fs[i].props
  {
    ghost var rs := Regions(fs);
    ghost var keep := restoreProps || KeepsFirst(turf.unionProps);
    g := fs[i];
    var j := i;
    while j < |fs| - 1
      invariant i <= j <= |fs| - 1
      invariant g.region == fs[i].region + RangeUnion(rs, i + 1, j + 1)
      invariant keep ==> g.props == fs[i].props
    {
      var properties := g.props;
      UnionStep(fs[i].region, RangeUnion(rs, i + 1, j + 1), rs[j + 1]);
      g := Union(turf, g, fs[j + 1]);
      if restoreProps {
        g := g.(props := properties);
      }
      j := j + 1;
    }
  }

  lemma UnionStep<P>(a: set<P>, b: set<P>, c: set<P>)
    ensures (a + b) + c == a + (b + c)
  {
  }

  /** While pass 1 has not yet touched features i.., uniting feature i with every later
      one gives the union of the original features i... */
  lemma UnionLaterIsSuffixUnion<P, Pr>(out: seq<Feature<P, Pr>>, fs: seq<Feature<P, Pr>>, i: nat, u: set<P>)
    requires |out| == |fs| && i < |fs|
    requires forall k :: i <= k < |fs| ==> out[k] == fs[k]
    requires u == out[i].region + RangeUnion(Regions(out), i + 1, |fs|)
    ensures u == SuffixUnion(Regions(fs), i)
  {
    RangeUnionAgree(Regions(out), Regions(fs), i + 1, |fs|);
    RangeUnionFront(Regions(fs), i, |fs|);
  }

  /** Unions over ranges where two lists agree are equal. */
  lemma {:induction false} RangeUnionAgree<P>(a: seq<set<P>>, b: seq<set<P>>, lo: nat, hi: nat)
    requires lo <= hi <= |a| && hi <= |b|
    requires forall k :: lo <= k < hi ==> a[k] == b[k]
    ensures RangeUnion(a, lo, hi) == RangeUnion(b, lo, hi)
    decreases hi - lo
  {
    if lo < hi {
      RangeUnionAgree(a, b, lo, hi - 1);
    }
  }

  /** Pass 2: for i from 0 to n - 2, feature i becomes itself minus feature i + 1, which
      pass 2 has not touched yet. */
  method DifferencePass<P, Pr>(fs: seq<Feature<P, Pr>>, turf: Turf<Pr>) returns (out: seq<Feature<P, Pr>>)
    ensures |out| == |fs|
    ensures forall i :: 0 <= i < |fs| - 1 ==> out[i] == Difference(turf, fs[i], fs[i + 1])
    ensures |fs| > 0 ==> out[|fs| - 1] == fs[|fs| - 1]
  {
    out := fs;
    var i := 0;
    while i < |out| - 1
      invariant |out| == |fs|
      invariant 0 <= i <= |fs|
      invariant |fs| > 0 ==> i <= |fs| - 1
      invariant forall k :: 0 <= k < i ==> out[k] == Difference(turf, fs[k], fs[k + 1])
      invariant forall k :: i <= k < |fs| ==> out[k] == fs[k]
    {
      out := out[i := Difference(turf, out[i], out[i + 1])];
      i := i + 1;
    }
  }

  /** Suffix unions, each minus the next, are the exclusive regions. */
  lemma DifferencesOfSuffixUnions<P>(rs: seq<set<P>>, us: seq<set<P>>, os: seq<set<P>>)
    requires |us| == |rs| && |os| == |rs|
    requires forall i :: 0 <= i < |rs| ==> us[i] == SuffixUnion(rs, i)
    requires forall i :: 0 <= i < |rs| - 1 ==> os[i] == us[i] - us[i + 1]
    requires |rs| > 0 ==> os[|rs| - 1] == us[|rs| - 1]
    ensures os == ExclusiveRegions(rs)
  {
    var ex := ExclusiveRegions(rs);
    forall i | 0 <= i < |rs|
      ensures os[i] == ex[i]
    {
      SuffixUnionStep(rs, i);
      if i == |rs| - 1 {
        assert SuffixUnion(rs, i + 1) == {};
      } else {
        assert us[i + 1] == SuffixUnion(rs, i + 1);
      }
    }
  }

  /** Both passes. The length is kept; region i ends as region i minus the union of all later
      regions (so the results are pairwise disjoint and cover what the inputs covered) and the
      last feature is unchanged. The properties survive when turf's difference keeps its first
      argument's properties and either they are restored after each union or turf's union
      keeps them as well. */
  method DeintersectFeatures<P, Pr(!new)>(fs: seq<Feature<P, Pr>>, turf: Turf<Pr>, restoreProps: bool)
    returns (out: seq<Feature<P, Pr>>)
    ensures |out| == |fs|
    ensures Regions(out) == ExclusiveRegions(Regions(fs))
    ensures |fs| > 0 ==> out[|fs| - 1] == fs[|fs| - 1]
    ensures (restoreProps || KeepsFirst(turf.unionProps)) && KeepsFirst(turf.differenceProps) ==>
      Props(out) == Props(fs)
  {
    var unioned := UnionPass(fs, turf, restoreProps);
    out := DifferencePass(unioned, turf);
    DifferencesOfSuffixUnions(Regions(fs), Regions(unioned), Regions(out));
    if (restoreProps || KeepsFirst(turf.unionProps)) && KeepsFirst(turf.differenceProps) {
      assert Props(unioned) == Props(fs);
      DifferencesKeepProps(fs, unioned, out, turf);
    }
  }

  /** When the difference keeps its first argument's properties, pass 2 hands on the
      properties pass 1 left. */
  lemma DifferencesKeepProps<P, Pr(!new)>(fs: seq<Feature<P, Pr>>, unioned: seq<Feature<P, Pr>>,
                                          out: seq<Feature<P, Pr>>, turf: Turf<Pr>)
    requires |unioned| == |fs| && |out| == |fs|
    requires Props(unioned) == Props(fs)
    requires forall i :: 0 <= i < |fs| - 1 ==> out[i] == Difference(turf, unioned[i], unioned[i + 1])
    requires |fs| > 0 ==> out[|fs| - 1] == unioned[|fs| - 1]
    requires KeepsFirst(turf.differenceProps)
    ensures Props(out) == Props(fs)
  {
    forall i | 0 <= i < |fs|
      ensures out[i].props == fs[i].props
    {
      assert unioned[i].props == Props(unioned)[i];
      if i < |fs| - 1 {
        assert out[i].props == turf.differenceProps(unioned[i].props, unioned[i + 1].props);
      }
    }
  }
}

=== FILE: geo.dfy ===
/** Geographic values the core passes around, and the polygon boolean operations it
    delegates to turf. A polygon is modelled by the set of points it covers, so
    `turf.union` is set union and `turf.difference` is set difference. Which
    properties turf puts on the feature it returns is not visible here; it is a
    parameter (`Turf`). */
module Geo {
  import opened Js

  /** A `[longitude, latitude]` pair. */
  datatype Position = Position(lon: Num, lat: Num)

  /** A waypoint of a table response; only its `location` is read. */
  datatype Waypoint = Waypoint(location: Position)

  /** A GeoJSON polygon feature: the covered region and its `properties`. */
  datatype Feature<P, Pr> = Feature(region: set<P>, props: Pr)

  /** The properties turf attaches to the feature returned by `union(a, b)` and
      `difference(a, b)`, given the properties of `a` and `b`. */
  datatype Turf<!Pr> = Turf(unionProps: (Pr, Pr) -> Pr, differenceProps: (Pr, Pr) -> Pr)

  function Union<P, Pr>(t: Turf<Pr>, a: Feature<P, Pr>, b: Feature<P, Pr>): Feature<P, Pr> {
    Feature(a.region + b.region, t.unionProps(a.props, b.props))
  }

  function Difference<P, Pr>(t: Turf<Pr>, a: Feature<P, Pr>, b: Feature<P, Pr>): Feature<P, Pr> {
    Feature(a.region - b.region, t.differenceProps(a.props, b.props))
  }

  /** The regions of a list of features. */
  function Regions<P, Pr>(fs: seq<Feature<P, Pr>>): (r: seq<set<P>>)
    ensures |r| == |fs|
    ensures forall i :: 0 <= i < |fs| ==> r[i] == fs[i].region
  {
    if fs == [] then [] else [fs[0].region] + Regions(fs[1..])
  }

  /** The properties of a list of features. */
  function Props<P, Pr>(fs: seq<Feature<P, Pr>>): (r: seq<Pr>)
    ensures |r| == |fs|
    ensures forall i :: 0 <= i < |fs| ==> r[i] == fs[i].props
  {
    if fs == [] then [] else [fs[0].props] + Props(fs[1..])
  }

  /** `Array.prototype.reverse`. */
  function Reverse<T>(xs: seq<T>): (r: seq<T>)
    ensures |r| == |xs|
    ensures forall i :: 0 <= i < |xs| ==> r[i] == xs[|xs| - 1 - i]
  {
    if xs == [] then [] else Reverse(xs[1..]) + [xs[0]]
  }
}

=== FILE: isochrone.dfy ===
/** The orchestration around the providers: `isochroneOSRM`, `isochroneValhalla` and the
    provider switch of `IsoChrone` in src/index.mjs, and `isochroneOSRM` and
    `isochroneValhalla` of src/index.js. Everything that talks to the outside (the grid
    builder, the two HTTP services, the concave hull, turf) is a parameter. */
module Isochrone {
  import opened Wrappers
  import opened Js
  import opened Text
  import opened Geo
  import opened OsrmRequest
  import opened TableMerge
  import opened Banding
  import opened Deintersect

  /** Why the promise returned by `IsoChrone` is rejected. */
  datatype IsoChroneError =
    | GridFailed(reason: string)         // makeGrid threw
    | BaseUrl(urlError: BaseUrlError)    // buildOSRMBaseUrl threw
    | TableFailed(mergeError: MergeError) // a table request failed, or a response had no durations
    | ContoursFailed(reason: string)     // the isochrone request failed
    | FeaturesMissing                    // `result.features.length` read on a result without features

  /** The state a promise settles in; `Pending` is a promise that never settles. */
  datatype Outcome<T> = Resolved(value: T) | Rejected(error: IsoChroneError) | Pending

  /** The options `IsoChrone` reads (after the server has validated and defaulted them). */
  datatype Options = Options(provider: JsValue, profile: JsValue, intervals: seq<Num>, deintersect: JsValue)

  /** One `{ time }` entry of a Valhalla request. */
  datatype Contour = Contour(time: JsValue)

  /** The JSON object sent to Valhalla's isochrone service. */
  datatype ContoursRequest = ContoursRequest(
    lat: JsValue, lon: JsValue, costing: string, contours: seq<Contour>, polygons: bool)

  /** The collaborators of `IsoChrone`: the grid builder (which may throw), the OSRM table
      service answering a URL, the Valhalla isochrone service answering a request (with the
      `features` of its result, `None` when the result has none, or why the request
      failed), the concave hull, turf, and the engine's number conversions. */
  datatype Services<P> = Services(
    makeGrid: seq<JsValue> -> Result<seq<Position>, string>,
    table: string -> Reply,
    contours: ContoursRequest -> Result<Option<seq<Feature<P, JsValue>>>, string>,
    hull: seq<Position> -> set<P>,
    turf: Turf<JsValue>,
    rt: Runtime)

  // ---------------------------------------------------------------------------
  // Fetching and merging the table responses

  /** The replies to `urls`, in order. */
  function Fetched(table: string -> Reply, urls: seq<string>): (rs: seq<Reply>)
    ensures |rs| == |urls|
    ensures forall k :: 0 <= k < |urls| ==> rs[k] == table(urls[k])
  {
    seq(|urls|, k requires 0 <= k < |urls| => table(urls[k]))
  }

  /** How many replies the merge loop reads before it stops: all Ok replies with a
      durations matrix, and then the one that stops it, if any. */
  function ReadCount(replies: seq<Reply>): (k: nat)
    ensures k <= |replies|
    ensures forall i :: 0 <= i < k - 1 ==> IsOk(replies[i])
    ensures k < |replies| ==> k > 0 && (!IsOk(replies[k - 1]) || |replies[k - 1].response.durations| == 0)
    ensures replies != [] ==> k > 0
  {
    if replies == [] then 0
    else if IsOk(replies[0]) && |replies[0].response.durations| > 0 then 1 + ReadCount(replies[1..])
    else 1
  }

  /** The sequential `for (const url of urls)` loop of `isochroneOSRM` (both sources):
      each URL is requested only after the previous reply was absorbed, so no request is
      made after the reply that stops the merge. */
  method FetchAndMerge(urls: seq<string>, table: string -> Reply) returns (r: Result<Table, MergeError>, requested: nat)
    ensures r == Merge(Fetched(table, urls))
    ensures requested == ReadCount(Fetched(table, urls))
  {
    ghost var replies := Fetched(table, urls);
    var acc := Initial;
    requested := 0;
    var i := 0;
    while i < |urls|
      invariant 0 <= i <= |urls|
      invariant requested == i
      invariant MergeFrom(replies[i..], acc) == Merge(replies)
      invariant ReadCount(replies) == i + ReadCount(replies[i..])
    {
      assert replies[i..][0] == table(urls[i]);
      assert replies[i..][1..] == replies[i + 1..];
      var reply := table(urls[i]);
      requested := requested + 1;
      match reply {
        case TransportFailure(e) =>
          r := Failure(Transport(e));
          return;
        case Received(response) =>
          if response.code != "" {
            acc := acc.(code := response.code);
          }
          if response.code != "Ok" {
            r := Success(acc);
            return;
          }
          if |response.durations| == 0 {
            r := Failure(MissingDurationRow);
            return;
          }
          acc := Absorb(acc, response);
      }
      i := i + 1;
    }
    r := Success(acc);
  }

  // ---------------------------------------------------------------------------
  // The OSRM path

  /** The URLs `buildOSRMUrls` plans for `[origin, ...grid]` with the single source 0. */
  function PlannedUrls(base: string, coords: seq<Position>, show: Num -> string): (urls: seq<string>)
    ensures |urls| == ChunkCount(|coords|, ModuleChunkSize)
  {
    seq(ChunkCount(|coords|, ModuleChunkSize), k requires 0 <= k < ChunkCount(|coords|, ModuleChunkSize) =>
      base + CoordsText(Chunk(coords, ModuleChunkSize, k), show) + "?sources=" + Join(Decimals([0]), "%3B"))
  }

  /** The table `isochroneOSRM` of src/index.mjs settles with, described without loops. */
  function OsrmTable<P>(start: seq<JsValue>, grid: seq<Position>, profile: JsValue, sv: Services<P>)
    : Result<Table, IsoChroneError>
  {
    match BuildBaseUrl(profile, start, sv.rt)
    case Failure(e) => Failure(BaseUrl(e))
    case Success(base) =>
      var coords := [Position(start[0].n, start[1].n)] + grid;
      match Merge(Fetched(sv.table, PlannedUrls(base, coords, sv.rt.numberToString)))
      case Failure(e) => Failure(TableFailed(e))
      case Success(t) => Success(t)
  }

  /** `isochroneOSRM` of src/index.mjs for `{ sources: [0], coordinates: [start, ...grid] }`.
      An invalid base URL rejects before any request is made. */
  method IsochroneOsrm<P>(start: seq<JsValue>, grid: seq<Position>, profile: JsValue, sv: Services<P>)
    returns (r: Result<Table, IsoChroneError>, requested: nat)
    ensures r == OsrmTable(start, grid, profile, sv)
    ensures BuildBaseUrl(profile, start, sv.rt).Failure? ==> requested == 0
    ensures BuildBaseUrl(profile, start, sv.rt).Success? ==>
      var coords := [Position(start[0].n, start[1].n)] + grid;
      requested == ReadCount(Fetched(sv.table, PlannedUrls(BuildBaseUrl(profile, start, sv.rt).value, coords, sv.rt.numberToString)))
  {
    var base := BuildBaseUrl(profile, start, sv.rt);
    if base.Failure? {
      r, requested := Failure(BaseUrl(base.error)), 0;
      return;
    }
    var coords := [Position(start[0].n, start[1].n)] + grid;
    var urls := BuildOsrmUrls(base.value, coords, [0], sv.rt.numberToString);
    assert urls == PlannedUrls(base.value, coords, sv.rt.numberToString);
    var merged;
    merged, requested := FetchAndMerge(urls, sv.table);
    r := if merged.Failure? then Failure(TableFailed(merged.error)) else Success(merged.value);
  }

  /** `{ time: parseFloat(interval) }`: `makePolygon` reads the interval back from the
      object key it was stored under, that is from its string form. */
  function TimeProperties(t: Num, rt: Runtime): JsValue {
    Obj(map["time" := Number(rt.parseFloat(rt.numberToString(t)))])
  }

  /** Band polygons with their `time` properties as JSON objects. */
  function Tagged<P>(fs: seq<Feature<P, Num>>, rt: Runtime): (r: seq<Feature<P, JsValue>>)
    ensures |r| == |fs|
    ensures forall i :: 0 <= i < |fs| ==> r[i] == Feature(fs[i].region, TimeProperties(fs[i].props, rt))
  {
    seq(|fs|, i requires 0 <= i < |fs| => Feature(fs[i].region, TimeProperties(fs[i].props, rt)))
  }

  /** The features of the OSRM path before deintersection: the band polygons of the
      merged table in `Object.keys` order, reversed. The table's `code` is not read. */
  function OsrmFeatures<P>(t: Table, intervals: seq<Num>, hull: seq<Position> -> set<P>, rt: Runtime)
    : seq<Feature<P, JsValue>>
  {
    Reverse(Tagged(MakePolygons(GroupByInterval(t.destinations, intervals, t.durationRow), hull), rt))
  }

  /** A filter of an ascending list is ascending. */
  lemma {:induction false} HullKeysAscending(order: seq<Num>, groups: seq<Group>)
    requires StrictlyAscending(order)
    ensures StrictlyAscending(HullKeys(order, groups))
  {
    if order != [] {
      var n := |order| - 1;
      var acc := HullKeys(order[..n], groups);
      HullKeysAscending(order[..n], groups);
      if |PointsOf(groups, order[n])| >= MinHullPoints {
        forall i | 0 <= i < |acc|
          ensures Lt(acc[i], order[n])
        {
          HullKeysMembership(order[..n], groups, acc[i]);
        }
      }
    }
  }

  /** With whole-minute intervals (canonical array indices, which `Object.keys` lists in
      ascending numeric order) the OSRM path yields its bands largest interval first,
      whatever order the intervals were given in. */
  lemma WholeMinuteBandsLargestFirst<P>(dests: seq<Waypoint>, row: seq<Duration>, intervals: seq<Num>,
                                        hull: seq<Position> -> set<P>)
    requires forall i :: 0 <= i < |intervals| ==> IsIndexKey(intervals[i])
    ensures var fs := Reverse(MakePolygons(GroupByInterval(dests, intervals, row), hull));
      forall i, j :: 0 <= i < j < |fs| ==> Lt(fs[j].props, fs[i].props)
  {
    var groups := GroupByInterval(dests, intervals, row);
    var polygons := MakePolygons(groups, hull);
    forall i | 0 <= i < |Keys(groups)|
      ensures IsIndexKey(Keys(groups)[i])
    {
      assert Keys(groups)[i] in Dedup(intervals);
    }
    IndexKeysComeOutAscending(Keys(groups));
    HullKeysAscending(PropertyOrder(Keys(groups)), groups);
    TimesAt(polygons);
  }

  /** With no whole-minute interval, `Object.keys` keeps insertion order: the band
      polygons follow the first occurrences of the intervals as given, so the OSRM path
      yields them in reverse input order. */
  lemma FractionalIntervalsKeepInputOrder<P>(dests: seq<Waypoint>, row: seq<Duration>, intervals: seq<Num>,
                                             hull: seq<Position> -> set<P>)
    requires forall i :: 0 <= i < |intervals| ==> !IsIndexKey(intervals[i])
    ensures var groups := GroupByInterval(dests, intervals, row);
      Times(MakePolygons(groups, hull)) == HullKeys(Dedup(intervals), groups)
  {
    var groups := GroupByInterval(dests, intervals, row);
    forall i | 0 <= i < |Keys(groups)|
      ensures !IsIndexKey(Keys(groups)[i])
    {
      assert Keys(groups)[i] in Dedup(intervals);
    }
    OtherKeysKeepInsertionOrder(Keys(groups));
  }

  // ---------------------------------------------------------------------------
  // Gated deintersection

  /** `after` is what the guarded deintersection makes of `before`: the features are left
      alone unless the flag is set and there is more than one; otherwise they are made
      mutually exclusive, the last one staying as it was. */
  ghost predicate DeintersectedIf<P>(before: seq<Feature<P, JsValue>>, after: seq<Feature<P, JsValue>>,
                                     flag: bool, turf: Turf<JsValue>, restoreProps: bool)
  {
    if flag && |before| > 1 then
      && |after| == |before|
      && Regions(after) == ExclusiveRegions(Regions(before))
      && after[|after| - 1] == before[|before| - 1]
      && ((restoreProps || KeepsFirst(turf.unionProps)) && KeepsFirst(turf.differenceProps) ==>
            Props(after) == Props(before))
    else after == before
  }

  /** `if (options.deintersect && features.length > 1) features = deintersect(features)`. */
  method GatedDeintersect<P>(fs: seq<Feature<P, JsValue>>, flag: bool, turf: Turf<JsValue>, restoreProps: bool)
    returns (out: seq<Feature<P, JsValue>>)
    ensures DeintersectedIf(fs, out, flag, turf, restoreProps)
    ensures |out| == |fs|
  {
    if flag && |fs| > 1 {
      out := DeintersectFeatures(fs, turf, restoreProps);
    } else {
      out := fs;
    }
  }

  // ---------------------------------------------------------------------------
  // The Valhalla path

  /** The contour list: one `{ time }` per interval, in order, duplicates included, when
      the intervals are an array; none otherwise. */
  method ContourList(intervals: JsValue) returns (contours: seq<Contour>)
    ensures intervals.Arr? ==>
      |contours| == |intervals.items| &&
      forall i :: 0 <= i < |contours| ==> contours[i] == Contour(intervals.items[i])
    ensures !intervals.Arr? ==> contours == []
  {
    contours := [];
    if intervals.Arr? {
      var i := 0;
      while i < |intervals.items|
        invariant 0 <= i <= |intervals.items|
        invariant |contours| == i
        invariant forall k :: 0 <= k < i ==> contours[k] == Contour(intervals.items[k])
      {
        contours := contours + [Contour(intervals.items[i])];
        i := i + 1;
      }
    }
  }

  /** The intervals as a JavaScript array of numbers. */
  function NumberArray(ns: seq<Num>): (v: JsValue)
    ensures v.Arr? && |v.items| == |ns|
    ensures forall i :: 0 <= i < |ns| ==> v.items[i] == Number(ns[i])
  {
    Arr(seq(|ns|, i requires 0 <= i < |ns| => Number(ns[i])))
  }

  /** The request of `isochroneValhalla`, without the loop. */
  function ValhallaRequest(start: seq<JsValue>, intervals: JsValue): ContoursRequest {
    ContoursRequest(At(start, 1), At(start, 0), "auto",
      if intervals.Arr? then seq(|intervals.items|, i requires 0 <= i < |intervals.items| => Contour(intervals.items[i]))
      else [],
      true)
  }

  /** `if (options.deintersect && result.features.length > 1)` on the service's result:
      reading the length of absent features throws, but only when the flag lets the
      condition get that far; a result without features is otherwise handed back as it is. */
  method DeintersectResult<P>(features: Option<seq<Feature<P, JsValue>>>, flag: bool, turf: Turf<JsValue>,
                              restoreProps: bool)
    returns (r: Result<Option<seq<Feature<P, JsValue>>>, IsoChroneError>)
    ensures features.None? ==> (r == Failure(FeaturesMissing) <==> flag)
    ensures features.None? && !flag ==> r == Success(None)
    ensures features.Some? ==>
      r.Success? && r.value.Some? && DeintersectedIf(features.value, r.value.value, flag, turf, restoreProps)
  {
    if features.None? {
      if flag {
        r := Failure(FeaturesMissing);
      } else {
        r := Success(None);
      }
      return;
    }
    var out := GatedDeintersect(features.value, flag, turf, restoreProps);
    r := Success(Some(out));
  }

  /** What becomes of the service's answer: a failed request rejects; otherwise the
      result goes through `DeintersectResult`. */
  ghost predicate ValhallaSettles<P>(answer: Result<Option<seq<Feature<P, JsValue>>>, string>,
                                     r: Result<Option<seq<Feature<P, JsValue>>>, IsoChroneError>,
                                     flag: bool, turf: Turf<JsValue>, restoreProps: bool)
  {
    match answer
    case Failure(e) => r == Failure(ContoursFailed(e))
    case Success(None) => if flag then r == Failure(FeaturesMissing) else r == Success(None)
    case Success(Some(fs)) => r.Success? && r.value.Some? && DeintersectedIf(fs, r.value.value, flag, turf, restoreProps)
  }

  /** `isochroneValhalla` of src/index.mjs: the service's features, deintersected (keeping
      what turf's union puts on them) when `deintersect` is set and there are several. */
  method IsochroneValhalla<P>(start: seq<JsValue>, options: Options, sv: Services<P>)
    returns (r: Result<Option<seq<Feature<P, JsValue>>>, IsoChroneError>)
    ensures ValhallaSettles(sv.contours(ValhallaRequest(start, NumberArray(options.intervals))), r,
                            Truthy(options.deintersect), sv.turf, false)
  {
    var contours := ContourList(NumberArray(options.intervals));
    var json := ContoursRequest(At(start, 1), At(start, 0), "auto", contours, true);
    assert json == ValhallaRequest(start, NumberArray(options.intervals));
    var result := sv.contours(json);
    if result.Failure? {
      r := Failure(ContoursFailed(result.error));
      return;
    }
    r := DeintersectResult(result.value, Truthy(options.deintersect), sv.turf, false);
  }

  // ---------------------------------------------------------------------------
  // IsoChrone

  /** How the promise of `IsoChrone(origin, options)` settles: pending for a provider
      other than 'osrm' and 'valhalla'; on the OSRM path a grid or table failure rejects,
      and otherwise the reversed band polygons go through the guarded deintersection
      (which keeps what turf's union puts on each feature); on the Valhalla path the
      service's answer settles as `ValhallaSettles` says. */
  ghost predicate IsoChroneSettles<P>(start: seq<JsValue>, options: Options, sv: Services<P>,
                                      o: Outcome<Option<seq<Feature<P, JsValue>>>>)
  {
    && (o == Pending <==> options.provider != Str("osrm") && options.provider != Str("valhalla"))
    && (options.provider == Str("osrm") ==>
          match sv.makeGrid(start)
          case Failure(e) => o == Rejected(GridFailed(e))
          case Success(grid) =>
            match OsrmTable(start, grid, options.profile, sv)
            case Failure(e) => o == Rejected(e)
            case Success(t) =>
              o.Resolved? && o.value.Some? &&
              DeintersectedIf(OsrmFeatures(t, options.intervals, sv.hull, sv.rt), o.value.value,
                              Truthy(options.deintersect), sv.turf, false))
    && (options.provider == Str("valhalla") ==>
          o != Pending &&
          ValhallaSettles(sv.contours(ValhallaRequest(start, NumberArray(options.intervals))),
                          if o.Rejected? then Failure(o.error) else Success(o.value),
                          Truthy(options.deintersect), sv.turf, false))
  }

  /** `IsoChrone(origin, options)` of src/index.mjs, given `origin.coordinates`. The OSRM
      path reverses the band polygons before the guarded deintersection; the Valhalla
      path passes the service's features through it unreversed. */
  method IsoChrone<P>(start: seq<JsValue>, options: Options, sv: Services<P>)
    returns (o: Outcome<Option<seq<Feature<P, JsValue>>>>)
    ensures IsoChroneSettles(start, options, sv, o)
  {
    if options.provider == Str("osrm") {
      var grid := sv.makeGrid(start);
      if grid.Failure? {
        o := Rejected(GridFailed(grid.error));
        return;
      }
      var table, _ := IsochroneOsrm(start, grid.value, options.profile, sv);
      if table.Failure? {
        o := Rejected(table.error);
        return;
      }
      var t := table.value;
      var pointsByInterval := GroupByInterval(t.destinations, options.intervals, t.durationRow);
      var polygons := MakePolygons(pointsByInterval, sv.hull);
      var features := Reverse(Tagged(polygons, sv.rt));
      features := GatedDeintersect(features, Truthy(options.deintersect), sv.turf, false);
      o := Resolved(Some(features));
    } else if options.provider == Str("valhalla") {
      var result := IsochroneValhalla(start, options, sv);
      o := if result.Failure? then Rejected(result.error) else Resolved(result.value);
    } else {
      o := Pending;
    }
  }

  // ---------------------------------------------------------------------------
  // src/index.js

  /** The URLs the loop of `isochroneOSRM` in src/index.js plans. */
  function ScriptPlannedUrls(endpoint: string, profile: string, coords: seq<Position>, sources: seq<nat>,
                             show: Num -> string): (urls: seq<string>)
    ensures |urls| == ChunkCount(|coords|, ScriptChunkSize)
  {
    seq(ChunkCount(|coords|, ScriptChunkSize), k requires 0 <= k < ChunkCount(|coords|, ScriptChunkSize) =>
      endpoint + profile + "/" + show(coords[0].lon) + "," + show(coords[0].lat)
      + CoordsText(Chunk(coords, ScriptChunkSize, k), show) + "?sources=" + Join(Decimals(sources), ";"))
  }

  /** `isochroneOSRM` of src/index.js. Coordinates holding only the origin make no
      request and settle with the initial table, whose code is 'Error'. */
  method ScriptIsochroneOsrm(endpoint: string, profile: string, coords: seq<Position>, sources: seq<nat>,
                             table: string -> Reply, show: Num -> string)
    returns (r: Result<Table, MergeError>, requested: nat)
    ensures r == Merge(Fetched(table, ScriptPlannedUrls(endpoint, profile, coords, sources, show)))
    ensures requested == ReadCount(Fetched(table, ScriptPlannedUrls(endpoint, profile, coords, sources, show)))
    ensures |coords| <= 1 ==> r == Success(Initial) && requested == 0
  {
    var urls := ScriptOsrmUrls(endpoint, profile, coords, sources, show);
    assert urls == ScriptPlannedUrls(endpoint, profile, coords, sources, show);
    r, requested := FetchAndMerge(urls, table);
  }

  /** `isochroneValhalla` of src/index.js: like the module's, but the service lives at
      `endpoint` and every union step puts back the properties the feature had before it. */
  method ScriptIsochroneValhalla<P>(start: seq<JsValue>, intervals: JsValue, deintersect: JsValue, endpoint: string,
                                    service: (string, ContoursRequest) -> Result<Option<seq<Feature<P, JsValue>>>, string>,
                                    turf: Turf<JsValue>)
    returns (r: Result<Option<seq<Feature<P, JsValue>>>, IsoChroneError>)
    ensures ValhallaSettles(service(endpoint, ValhallaRequest(start, intervals)), r, Truthy(deintersect), turf, true)
  {
    var contours := ContourList(intervals);
    var json := ContoursRequest(At(start, 1), At(start, 0), "auto", contours, true);
    assert json == ValhallaRequest(start, intervals);
    var result := service(endpoint, json);
    if result.Failure? {
      r := Failure(ContoursFailed(result.error));
      return;
    }
    r := DeintersectResult(result.value, Truthy(deintersect), turf, true);
  }

  // ---------------------------------------------------------------------------
  // Batching is invisible to the result

  /** `f` applied to every coordinate: the travel times or the snapped waypoints a
      table service reports for them. */
  function MapAll<T>(ps: seq<Position>, f: Position -> T): (r: seq<T>)
    ensures |r| == |ps|
    ensures forall i :: 0 <= i < |ps| ==> r[i] == f(ps[i])
  {
    seq(|ps|, i requires 0 <= i < |ps| => f(ps[i]))
  }

  /** The answer of a table service that knows a travel time and a snapped waypoint for
      every coordinate, to a request from `origin` to `dests`. */
  function FakeResponse(origin: Position, dests: seq<Position>, time: Position -> Duration,
                        snap: Position -> Waypoint): Response
  {
    Response("Ok", [snap(origin)], [[Some(0.0)] + MapAll(dests, time)], [snap(origin)] + MapAll(dests, snap))
  }

  function FakeResponses(origin: Position, chunks: seq<seq<Position>>, time: Position -> Duration,
                         snap: Position -> Waypoint): (rs: seq<Response>)
    ensures |rs| == |chunks|
    ensures forall k :: 0 <= k < |chunks| ==> rs[k] == FakeResponse(origin, chunks[k], time, snap)
  {
    seq(|chunks|, k requires 0 <= k < |chunks| => FakeResponse(origin, chunks[k], time, snap))
  }

  lemma {:induction false} RowTailsAppend(a: seq<Response>, b: seq<Response>)
    requires HasRows(a) && HasRows(b)
    ensures HasRows(a + b)
    ensures RowTails(a + b) == RowTails(a) + RowTails(b)
  {
    if a == [] {
      assert a + b == b;
    } else {
      assert (a + b)[0] == a[0];
      assert (a + b)[1..] == a[1..] + b;
      RowTailsAppend(a[1..], b);
    }
  }

  lemma {:induction false} DestinationTailsAppend(a: seq<Response>, b: seq<Response>)
    ensures DestinationTails(a + b) == DestinationTails(a) + DestinationTails(b)
  {
    if a == [] {
      assert a + b == b;
    } else {
      assert (a + b)[0] == a[0];
      assert (a + b)[1..] == a[1..] + b;
      DestinationTailsAppend(a[1..], b);
    }
  }

  lemma FakeResponsesSnoc(origin: Position, chunks: seq<seq<Position>>, time: Position -> Duration,
                          snap: Position -> Waypoint)
    requires chunks != []
    ensures FakeResponses(origin, chunks, time, snap)
         == FakeResponses(origin, chunks[..|chunks| - 1], time, snap)
            + [FakeResponse(origin, chunks[|chunks| - 1], time, snap)]
  {
  }

  lemma MapAllAppend<T>(a: seq<Position>, b: seq<Position>, f: Position -> T)
    ensures MapAll(a + b, f) == MapAll(a, f) + MapAll(b, f)
  {
  }

  lemma OneFakeResponse(origin: Position, c: seq<Position>, time: Position -> Duration, snap: Position -> Waypoint)
    ensures HasRows([FakeResponse(origin, c, time, snap)])
    ensures RowTails([FakeResponse(origin, c, time, snap)]) == MapAll(c, time)
    ensures DestinationTails([FakeResponse(origin, c, time, snap)]) == MapAll(c, snap)
  {
    var r := FakeResponse(origin, c, time, snap);
    assert [r][1..] == [];
    assert Tail(r.durations[0]) == MapAll(c, time);
    assert Tail(r.destinations) == MapAll(c, snap);
  }

  /** The rows of the fake answers, without their first entries, are the travel times of
      all chunks together. */
  lemma {:induction false} FakeRowTails(origin: Position, chunks: seq<seq<Position>>, time: Position -> Duration,
                                        snap: Position -> Waypoint)
    ensures HasRows(FakeResponses(origin, chunks, time, snap))
    ensures RowTails(FakeResponses(origin, chunks, time, snap)) == MapAll(Concat(chunks), time)
  {
    if chunks != [] {
      var n := |chunks| - 1;
      var front := FakeResponses(origin, chunks[..n], time, snap);
      var last := FakeResponse(origin, chunks[n], time, snap);
      FakeRowTails(origin, chunks[..n], time, snap);
      FakeResponsesSnoc(origin, chunks, time, snap);
      OneFakeResponse(origin, chunks[n], time, snap);
      RowTailsAppend(front, [last]);
      MapAllAppend(Concat(chunks[..n]), chunks[n], time);
    }
  }

  /** The destinations of the fake answers, without their first entries, are the waypoints
      of all chunks together. */
  lemma {:induction false} FakeDestinationTails(origin: Position, chunks: seq<seq<Position>>,
                                                time: Position -> Duration, snap: Position -> Waypoint)
    ensures DestinationTails(FakeResponses(origin, chunks, time, snap)) == MapAll(Concat(chunks), snap)
  {
    if chunks != [] {
      var n := |chunks| - 1;
      var front := FakeResponses(origin, chunks[..n], time, snap);
      var last := FakeResponse(origin, chunks[n], time, snap);
      FakeDestinationTails(origin, chunks[..n], time, snap);
      FakeResponsesSnoc(origin, chunks, time, snap);
      OneFakeResponse(origin, chunks[n], time, snap);
      DestinationTailsAppend(front, [last]);
      MapAllAppend(Concat(chunks[..n]), chunks[n], snap);
    }
  }

  /** The fake service's replies to the chunked requests, in URL order. */
  function FakeReplies(coords: seq<Position>, size: nat, time: Position -> Duration, snap: Position -> Waypoint)
    : (replies: seq<Reply>)
    requires size > 0 && |coords| >= 1
    ensures |replies| == ChunkCount(|coords|, size)
    ensures forall k :: 0 <= k < |replies| ==>
      replies[k] == Received(FakeResponse(coords[0], Chunk(coords, size, k), time, snap))
  {
    seq(ChunkCount(|coords|, size), k requires 0 <= k < ChunkCount(|coords|, size) =>
      Received(FakeResponse(coords[0], Chunk(coords, size, k), time, snap)))
  }

  /** Against a provider that answers every chunk consistently, merging the chunked
      answers gives the table one unbatched request for all coordinates would give:
      travel times and destinations index for index, the origin's 0 first. Coordinates
      holding only the origin make no request and leave the initial 'Error' table. */
  lemma BatchingIsTransparent(coords: seq<Position>, size: nat, time: Position -> Duration,
                              snap: Position -> Waypoint)
    requires size >= 2 && |coords| >= 1
    ensures var replies := FakeReplies(coords, size, time, snap);
      var whole := FakeResponse(coords[0], coords[1..], time, snap);
      Merge(replies) == if |coords| == 1 then Success(Initial)
                        else Success(Table(whole.code, whole.durations[0], whole.sources, whole.destinations))
  {
    var m := ChunkCount(|coords|, size);
    var chunks := Chunks(coords, size);
    var replies := FakeReplies(coords, size, time, snap);
    var rs := FakeResponses(coords[0], chunks, time, snap);
    ChunksCoverTail(coords, size);
    if |coords| >= 2 {
      CeilDivBounds(|coords|, size);
      assert m >= 1;
      assert OkCount(replies) == m;
      assert OkResponses(replies) == rs;
      FakeRowTails(coords[0], chunks, time, snap);
      FakeDestinationTails(coords[0], chunks, time, snap);
      assert |rs[0].destinations| >= 2;
      assert HeadDestination(rs) == [snap(coords[0])];
      assert FirstSources(rs) == [snap(coords[0])];
      assert LastCode(replies, "Error") == "Ok";
      MergeMatchesReference(replies);
    }
  }
}

=== FILE: js.dfy ===
/** The slice of JavaScript's value model that the isochrone core inspects:
    numbers with NaN and the infinities, dynamically typed JSON-like values,
    truthiness, property reads and the `<=`/`<`/`>` comparisons. Floating-point
    rounding is not modelled: a finite number is a `real`. */
module Js {

  /** A JavaScript number. */
  datatype Num = NaN | NegInf | Fin(value: real) | PosInf

  /** JavaScript `a <= b` on two numbers: false as soon as either side is NaN. */
  predicate Le(a: Num, b: Num) {
    match (a, b)
    case (NaN, _) => false
    case (_, NaN) => false
    case (NegInf, _) => true
    case (_, PosInf) => true
    case (Fin(x), Fin(y)) => x <= y
    case (_, _) => false
  }

  /** JavaScript `a < b` on two numbers. */
  predicate Lt(a: Num, b: Num) {
    Le(a, b) && a != b
  }

  /** `n * k` for a positive finite factor `k` (sixty seconds a minute, two kilometres a minute). */
  function Scale(n: Num, k: real): (r: Num)
    requires k > 0.0
    ensures r.NaN? <==> n.NaN?
  {
    match n
    case Fin(x) => Fin(x * k)
    case _ => n
  }

  /** Scaling by a positive factor keeps the order of two numbers. */
  lemma ScaleMonotone(m: Num, n: Num, k: real)
    requires k > 0.0
    requires Le(m, n)
    ensures Le(Scale(m, k), Scale(n, k))
  {
  }

  /** The larger of two numbers as `Math.max` chooses it: NaN wins. */
  function Max2(a: Num, b: Num): Num {
    if a.NaN? || b.NaN? then NaN
    else if Le(a, b) then b
    else a
  }

  /** `Math.max(...xs)`: negative infinity for no argument, NaN if any argument is NaN,
      otherwise the largest argument. */
  function MathMax(xs: seq<Num>): (r: Num)
    ensures r.NaN? <==> NaN in xs
    ensures NaN !in xs ==> forall i :: 0 <= i < |xs| ==> Le(xs[i], r)
    ensures xs == [] ==> r == NegInf
    ensures xs != [] && NaN !in xs ==> r in xs
  {
    if xs == [] then NegInf else Max2(xs[0], MathMax(xs[1..]))
  }

  /** Transitivity of `<=` on numbers. */
  lemma LeTransitive(a: Num, b: Num, c: Num)
    requires Le(a, b) && Le(b, c)
    ensures Le(a, c)
  {
  }

  /** The JSON-like values the server receives and passes on. An object is the map
      of its own properties; a property that is absent reads as `Undefined`. */
  datatype JsValue =
    | Undefined
    | Null
    | Bool(b: bool)
    | Number(n: Num)
    | Str(s: string)
    | Arr(items: seq<JsValue>)
    | Obj(fields: map<string, JsValue>)

  /** JavaScript truthiness (`if (v)`, `!v`). */
  predicate Truthy(v: JsValue) {
    match v
    case Undefined => false
    case Null => false
    case Bool(b) => b
    case Number(n) => n != NaN && n != Fin(0.0)
    case Str(s) => s != ""
    case Arr(_) => true
    case Obj(_) => true
  }

  /** Reading property `key` of a value the way lodash's property shorthand does
      (also the plain read on a value known not to be null or undefined). */
  function Field(v: JsValue, key: string): JsValue {
    match v
    case Obj(fields) => if key in fields then fields[key] else Undefined
    case _ => Undefined
  }

  /** Element `i` of an array-like list, `undefined` past its end. */
  function At(xs: seq<JsValue>, i: nat): JsValue {
    if i < |xs| then xs[i] else Undefined
  }

  /** The conversions that belong to the JavaScript engine rather than to the program:
      the global `parseFloat` (after its argument has been made a string),
      `StringToNumber` (what `Number(s)` and the comparison operators do to a string),
      `Number.prototype.toString`, and the string an array or object turns into. */
  datatype Runtime = Runtime(
    parseFloat: string -> Num,
    stringToNumber: string -> Num,
    numberToString: Num -> string,
    compositeToString: JsValue -> string)

  /** The abstract operation ToNumber, as a relational comparison applies it. */
  function ToNumber(v: JsValue, rt: Runtime): Num {
    match v
    case Undefined => NaN
    case Null => Fin(0.0)
    case Bool(b) => if b then Fin(1.0) else Fin(0.0)
    case Number(n) => n
    case Str(s) => rt.stringToNumber(s)
    case Arr(_) => rt.stringToNumber(rt.compositeToString(v))
    case Obj(_) => rt.stringToNumber(rt.compositeToString(v))
  }
}

=== FILE: osrm_request.dfy ===
/** Planning the OSRM table requests: the base URL with its validation of profile
    and origin (`buildOSRMBaseUrl` in src/index.mjs), and the split of
    `[origin, ...grid]` into URLs of at most a fixed number of destination
    coordinates (`buildOSRMUrls` in src/index.mjs, 5000 per URL; the URL loop of
    `isochroneOSRM` in src/index.js, 10000 per URL). */
module OsrmRequest {
  import opened Wrappers
  import opened Js
  import opened Text
  import opened Geo

  /** Destination coordinates per URL in src/index.mjs. */
  const ModuleChunkSize: nat := 5000
  /** Destination coordinates per URL in src/index.js. */
  const ScriptChunkSize: nat := 10000
  /** The table service address src/index.mjs writes into every base URL. */
  const ModuleTableService: string := "http://127.0.0.1:5000/table/v1/"
  /** The travel modes src/index.mjs accepts. */
  const Profiles: seq<string> := ["car", "bicycle", "foot"]

  // ---------------------------------------------------------------------------
  // The longitude pattern ^-?\d{1,3}(\.\d+)?$

  /** The number of digits `s` starts with. */
  function LeadingDigits(s: string): (k: nat)
    ensures k <= |s|
    ensures AllDigits(s[..k])
    ensures k < |s| ==> !IsDigit(s[k])
  {
    if s == [] || !IsDigit(s[0]) then 0
    else
      var k := 1 + LeadingDigits(s[1..]);
      assert s[..k] == [s[0]] + s[1..][..k - 1];
      k
  }

  /** `s` with one leading minus sign removed, if it has one. */
  function Unsigned(s: string): string {
    if |s| > 0 && s[0] == '-' then s[1..] else s
  }

  /** The longitude test of `buildOSRMBaseUrl`, as a left-to-right scan: an optional
      minus, one to three digits, then nothing or a point and at least one digit. */
  predicate LongitudeShape(s: string) {
    var body := Unsigned(s);
    var k := LeadingDigits(body);
    1 <= k <= 3 && (k == |body| || (body[k] == '.' && k + 1 < |body| && AllDigits(body[k + 1..])))
  }

  /** A word of the pattern's language, by its parts: sign, integer digits, fraction digits. */
  datatype Decimal = Decimal(negative: bool, whole: string, fraction: Option<string>)

  /** The parts the pattern admits. */
  predicate WellFormed(d: Decimal) {
    && 1 <= |d.whole| <= 3
    && AllDigits(d.whole)
    && (d.fraction.Some? ==> |d.fraction.value| >= 1 && AllDigits(d.fraction.value))
  }

  /** The string a `Decimal` spells. */
  function Spell(d: Decimal): string {
    (if d.negative then "-" else "")
    + d.whole
    + FractionText(d.fraction)
  }

  /** Every word of the pattern passes the scan. */
  lemma SpelledLongitudeMatches(d: Decimal)
    requires WellFormed(d)
    ensures LongitudeShape(Spell(d))
  {
    var body := d.whole + FractionText(d.fraction);
    assert Spell(d) == (if d.negative then "-" else "") + body;
    assert body[0] == d.whole[0];
    UnsignedOfSigned(d.negative, body);
    BodyShape(d);
  }

  /** The text after the integer digits: nothing, or a point and the fraction digits. */
  function FractionText(fraction: Option<string>): string {
    match fraction case None => "" case Some(f) => "." + f
  }

  /** After the sign, the scan finds the integer digits, then the end or a point and
      the fraction digits. */
  lemma BodyShape(d: Decimal)
    requires WellFormed(d)
    ensures var body := d.whole + FractionText(d.fraction);
      var k := |d.whole|;
      && LeadingDigits(body) == k
      && (k == |body| || (body[k] == '.' && k + 1 < |body| && AllDigits(body[k + 1..])))
  {
    var rest := FractionText(d.fraction);
    LeadingDigitsOfDigits(d.whole, rest);
    if d.fraction.Some? {
      PointThenFraction(d.whole, d.fraction.value);
    }
  }

  lemma UnsignedOfSigned(negative: bool, body: string)
    requires |body| > 0 && body[0] != '-'
    ensures Unsigned((if negative then "-" else "") + body) == body
  {
    if !negative {
      assert "" + body == body;
    }
  }

  lemma PointThenFraction(whole: string, fraction: string)
    ensures (whole + ("." + fraction))[|whole|] == '.'
    ensures (whole + ("." + fraction))[|whole| + 1..] == fraction
  {
  }

  lemma {:induction false} LeadingDigitsOfDigits(a: string, b: string)
    requires AllDigits(a)
    requires b == [] || !IsDigit(b[0])
    ensures LeadingDigits(a + b) == |a|
  {
    if a == [] {
      assert a + b == b;
    } else {
      assert (a + b)[1..] == a[1..] + b;
      LeadingDigitsOfDigits(a[1..], b);
    }
  }

  /** The parts of a string that passes the scan; spelling them gives the string back,
      so the scan accepts exactly the words of the pattern. */
  function Decompose(s: string): (d: Decimal)
    requires LongitudeShape(s)
    ensures WellFormed(d)
    ensures Spell(d) == s
  {
    var negative := |s| > 0 && s[0] == '-';
    var body := Unsigned(s);
    var k := LeadingDigits(body);
    SignSplit(s);
    SpellParts(negative, body, k, s);
    Decimal(negative, body[..k], if k == |body| then None else Some(body[k + 1..]))
  }

  lemma SignSplit(s: string)
    ensures s == (if |s| > 0 && s[0] == '-' then "-" else "") + Unsigned(s)
  {
    if |s| > 0 && s[0] == '-' {
      assert s == [s[0]] + s[1..];
    }
  }

  /** Cutting the unsigned part at the end of its leading digits, and spelling the
      pieces again, gives the string back. */
  lemma SpellParts(negative: bool, body: string, k: nat, s: string)
    requires k <= |body|
    requires k < |body| ==> body[k] == '.'
    requires s == (if negative then "-" else "") + body
    ensures Spell(Decimal(negative, body[..k], if k == |body| then None else Some(body[k + 1..]))) == s
  {
    var sign := if negative then "-" else "";
    var rest := if k == |body| then "" else "." + body[k + 1..];
    assert body[..k] + rest == body by {
      if k < |body| {
        assert body == body[..k] + ([body[k]] + body[k + 1..]);
      } else {
        assert body[..k] == body;
      }
    }
    assert sign + body[..k] + rest == sign + (body[..k] + rest);
  }

  // ---------------------------------------------------------------------------
  // The base URL

  /** Why `buildOSRMBaseUrl` throws. */
  datatype BaseUrlError =
    | InvalidProfile(profile: JsValue)
    | OriginNotNumbers
    | InvalidLongitude
    | LatitudeOutOfRange

  predicate ValidProfile(profile: JsValue) {
    profile.Str? && profile.s in Profiles
  }

  predicate NumericOrigin(origin: seq<JsValue>) {
    At(origin, 0).Number? && At(origin, 1).Number?
  }

  /** `buildOSRMBaseUrl(options, coordinates)` with `coordinates[0]` given as `origin`:
      the checks run in the source's order and the first failing one decides the error. */
  function BuildBaseUrl(profile: JsValue, origin: seq<JsValue>, rt: Runtime): (r: Result<string, BaseUrlError>)
    ensures r == Failure(InvalidProfile(profile)) <==> !ValidProfile(profile)
    ensures r == Failure(OriginNotNumbers) <==> ValidProfile(profile) && !NumericOrigin(origin)
    ensures r == Failure(InvalidLongitude) <==>
      ValidProfile(profile) && NumericOrigin(origin) && !LongitudeShape(rt.numberToString(origin[0].n))
    ensures r == Failure(LatitudeOutOfRange) <==>
      && ValidProfile(profile) && NumericOrigin(origin) && LongitudeShape(rt.numberToString(origin[0].n))
      && (Lt(Fin(90.0), origin[1].n) || Lt(origin[1].n, Fin(-90.0)))
    ensures r.Success? ==>
      && NumericOrigin(origin)
      && (origin[1].n == NaN || (origin[1].n.Fin? && -90.0 <= origin[1].n.value <= 90.0))
      && r.value == ModuleTableService + profile.s + "/" + rt.numberToString(origin[0].n)
                    + "," + rt.numberToString(origin[1].n)
  {
    if !ValidProfile(profile) then Failure(InvalidProfile(profile))
    else if !NumericOrigin(origin) then Failure(OriginNotNumbers)
    else
      var latitude := origin[1].n;
      var longitude := rt.numberToString(origin[0].n);
      if !LongitudeShape(longitude) then Failure(InvalidLongitude)
      else if Lt(Fin(90.0), latitude) || Lt(latitude, Fin(-90.0)) then Failure(LatitudeOutOfRange)
      else Success(ModuleTableService + profile.s + "/" + longitude + "," + rt.numberToString(latitude))
  }

  // ---------------------------------------------------------------------------
  // Chunking

  function Min(a: int, b: int): int {
    if a <= b then a else b
  }

  /** `Math.ceil(n / d)`. */
  function CeilDiv(n: nat, d: nat): nat
    requires d > 0
  {
    (n + d - 1) / d
  }

  lemma CeilDivBounds(n: nat, d: nat)
    requires d > 0
    ensures CeilDiv(n, d) * d >= n
    ensures forall i: nat :: i < CeilDiv(n, d) ==> i * d < n
  {
    var q := CeilDiv(n, d);
    var m := n + d - 1;
    assert m == q * d + m % d;
    forall i: nat | i < q
      ensures i * d < n
    {
      assert (i + 1) * d <= q * d by {
        assert i + 1 <= q;
        MulMonotone(i + 1, q, d);
      }
    }
  }

  lemma MulMonotone(a: nat, b: nat, d: nat)
    requires a <= b
    ensures a * d <= b * d
  {
  }

  /** How many URLs the loop emits for `n` coordinates (origin included). */
  function ChunkCount(n: nat, size: nat): nat
    requires size > 0
  {
    if n <= 1 || size == 1 then 0 else CeilDiv(n, size)
  }

  /** The first coordinate index of URL `k`: chunk 0 skips the origin. */
  function ChunkStart(k: nat, size: nat): nat {
    if k == 0 then 1 else k * size
  }

  /** One past the last coordinate index of URL `k`. */
  function ChunkEnd(k: nat, size: nat, n: nat): nat {
    Min((k + 1) * size, n)
  }

  /** The destination coordinates URL `k` carries. */
  function Chunk<C>(coords: seq<C>, size: nat, k: nat): (c: seq<C>)
    requires size > 0 && k < ChunkCount(|coords|, size)
    ensures |c| > 0
  {
    CeilDivBounds(|coords|, size);
    coords[ChunkStart(k, size)..ChunkEnd(k, size, |coords|)]
  }

  /** Concatenation of a list of lists. */
  function Concat<C>(xss: seq<seq<C>>): seq<C> {
    if xss == [] then [] else Concat(xss[..|xss| - 1]) + xss[|xss| - 1]
  }

  /** All chunks of a list. */
  function Chunks<C>(coords: seq<C>, size: nat): (cs: seq<seq<C>>)
    requires size > 0
    ensures |cs| == ChunkCount(|coords|, size)
  {
    seq(ChunkCount(|coords|, size), k requires 0 <= k < ChunkCount(|coords|, size) => Chunk(coords, size, k))
  }

  /** The chunks of URLs 0..m-1 concatenated are the coordinates from index 1 up to the end of chunk m-1. */
  lemma {:induction false} ChunksPrefix<C>(coords: seq<C>, size: nat, m: nat)
    requires size > 0 && 1 <= m <= ChunkCount(|coords|, size)
    ensures Concat(Chunks(coords, size)[..m]) == coords[1..ChunkEnd(m - 1, size, |coords|)]
  {
    var cs := Chunks(coords, size);
    var n := |coords|;
    assert cs[..m][..m - 1] == cs[..m - 1];
    if m == 1 {
      assert cs[..0] == [];
      assert cs[0] == Chunk(coords, size, 0);
    } else {
      ChunksPrefix(coords, size, m - 1);
      ChunkBoundaries(n, size, m);
      assert cs[m - 1] == coords[ChunkStart(m - 1, size)..ChunkEnd(m - 1, size, n)];
      SliceSplit(coords, 1, ChunkStart(m - 1, size), ChunkEnd(m - 1, size, n));
    }
  }

  /** Consecutive chunks meet: chunk m - 2 ends where chunk m - 1 starts. */
  lemma ChunkBoundaries(n: nat, size: nat, m: nat)
    requires size > 0 && 2 <= m <= ChunkCount(n, size)
    ensures 1 <= ChunkEnd(m - 2, size, n) == ChunkStart(m - 1, size) <= ChunkEnd(m - 1, size, n) <= n
  {
    CeilDivBounds(n, size);
    assert (m - 1) * size < n;
    assert (m - 1) * size <= m * size;
  }

  lemma SliceSplit<C>(s: seq<C>, a: nat, b: nat, c: nat)
    requires a <= b <= c <= |s|
    ensures s[a..c] == s[a..b] + s[b..c]
  {
  }

  /** With a chunk size of at least two, the URLs carry every coordinate after the origin
      exactly once and in order; a list holding only the origin yields no URL. */
  lemma ChunksCoverTail<C>(coords: seq<C>, size: nat)
    requires size >= 2
    ensures |coords| <= 1 ==> Chunks(coords, size) == []
    ensures |coords| >= 1 ==> Concat(Chunks(coords, size)) == coords[1..]
  {
    var n := |coords|;
    var cs := Chunks(coords, size);
    if n >= 2 {
      var m := ChunkCount(n, size);
      CeilDivBounds(n, size);
      assert m >= 1;
      ChunksPrefix(coords, size, m);
      assert cs[..m] == cs;
      assert ChunkEnd(m - 1, size, n) == n;
    } else if n == 1 {
      assert cs == [];
    }
  }

  /** `;lon,lat` for one destination coordinate. */
  function CoordText(c: Position, show: Num -> string): string {
    ";" + show(c.lon) + "," + show(c.lat)
  }

  /** The destination part of a URL. */
  function CoordsText(cs: seq<Position>, show: Num -> string): string {
    if cs == [] then "" else CoordsText(cs[..|cs| - 1], show) + CoordText(cs[|cs| - 1], show)
  }

  /** The URL loop shared by both sources: URL `k` is `prefix`, then `;lon,lat` for
      every coordinate of chunk `k`, then `suffix`; the loop stops at the first chunk
      without coordinates. */
  method ChunkedUrls(coords: seq<Position>, size: nat, prefix: string, suffix: string, show: Num -> string)
    returns (urls: seq<string>)
    requires size > 0
    ensures |urls| == ChunkCount(|coords|, size)
    ensures forall k :: 0 <= k < |urls| ==>
      urls[k] == prefix + CoordsText(Chunk(coords, size, k), show) + suffix
  {
    var n := |coords|;
    var total := CeilDiv(n, size);
    CeilDivBounds(n, size);
    urls := [];
    var i := 0;
    while i < total
      invariant 0 <= i <= total
      invariant |urls| == i
      invariant i <= ChunkCount(n, size)
      invariant ChunkCount(n, size) > 0 ==> ChunkCount(n, size) == total
      invariant forall k :: 0 <= k < i ==>
        urls[k] == prefix + CoordsText(Chunk(coords, size, k), show) + suffix
    {
      var firstRequestOffset := if i == 0 then 1 else 0;
      var start := i * size + firstRequestOffset;
      assert start == ChunkStart(i, size) <= n;
      var text, coordinateCounter := DestinationText(coords, start, i * size + size, show);
      if coordinateCounter == 0 {
        break;
      }
      urls := urls + [prefix + text + suffix];
      i := i + 1;
    }
  }

  /** The inner loop: `;lon,lat` for each coordinate from `start` until `limit` or the end
      of the list, whichever comes first, and how many were written. */
  method DestinationText(coords: seq<Position>, start: nat, limit: nat, show: Num -> string)
    returns (text: string, count: nat)
    requires start <= |coords| && start <= limit
    ensures count == Min(limit, |coords|) - start
    ensures text == CoordsText(coords[start..Min(limit, |coords|)], show)
  {
    text := "";
    count := 0;
    var j := start;
    while j < limit
      invariant start <= j <= limit && j <= |coords|
      invariant count == j - start
      invariant text == CoordsText(coords[start..j], show)
    {
      if j >= |coords| {
        break;  // coordinates[j] is undefined
      }
      CoordsTextExtend(coords, start, j, show);
      text := text + CoordText(coords[j], show);
      count := count + 1;
      j := j + 1;
    }
  }

  lemma CoordsTextSnoc(cs: seq<Position>, c: Position, show: Num -> string)
    ensures CoordsText(cs + [c], show) == CoordsText(cs, show) + CoordText(c, show)
  {
    assert (cs + [c])[..|cs|] == cs;
  }

  lemma CoordsTextExtend(coords: seq<Position>, start: nat, j: nat, show: Num -> string)
    requires start <= j < |coords|
    ensures CoordsText(coords[start..j + 1], show) == CoordsText(coords[start..j], show) + CoordText(coords[j], show)
  {
    CoordsTextSnoc(coords[start..j], coords[j], show);
    assert coords[start..j + 1] == coords[start..j] + [coords[j]];
  }

  /** `buildOSRMUrls` of src/index.mjs: the sources parameter goes through
      `URLSearchParams`, so the `;` between sources is written `%3B`. */
  method BuildOsrmUrls(baseUrl: string, coords: seq<Position>, sources: seq<nat>, show: Num -> string)
    returns (urls: seq<string>)
    ensures |urls| == ChunkCount(|coords|, ModuleChunkSize)
    ensures forall k :: 0 <= k < |urls| ==>
      urls[k] == baseUrl + CoordsText(Chunk(coords, ModuleChunkSize, k), show)
                 + "?sources=" + Join(Decimals(sources), "%3B")
  {
    FormEncodeJoinedDecimals(sources);
    var urlParamsString := "sources=" + FormEncode(Join(Decimals(sources), ";"));
    urls := ChunkedUrls(coords, ModuleChunkSize, baseUrl, "?" + urlParamsString, show);
  }

  /** The URL loop of `isochroneOSRM` in src/index.js: every URL starts with the
      endpoint, the profile and the origin, and the sources are joined with a plain `;`. */
  method ScriptOsrmUrls(endpoint: string, profile: string, coords: seq<Position>, sources: seq<nat>,
                        show: Num -> string)
    returns (urls: seq<string>)
    ensures |urls| == ChunkCount(|coords|, ScriptChunkSize)
    ensures forall k :: 0 <= k < |urls| ==>
      urls[k] == endpoint + profile + "/" + show(coords[0].lon) + "," + show(coords[0].lat)
                 + CoordsText(Chunk(coords, ScriptChunkSize, k), show)
                 + "?sources=" + Join(Decimals(sources), ";")
  {
    if |coords| == 0 {
      urls := [];  // no iteration, so coordinates[0] is never read
    } else {
      var origin := endpoint + profile + "/" + show(coords[0].lon) + "," + show(coords[0].lat);
      urls := ChunkedUrls(coords, ScriptChunkSize, origin, "?sources=" + Join(Decimals(sources), ";"), show);
    }
  }
}

=== FILE: server.dfy ===
/** The HTTP front end of server/index.mjs, without the HTTP: the query-string parsers of
    `GET /api/`, the options object that handler builds from them, and `run`, which
    validates and defaults the options before handing them to `IsoChrone`. */
module Server {
  import opened Wrappers
  import opened Js
  import opened Text
  import opened Geo
  import opened Isochrone

  // ---------------------------------------------------------------------------
  // Query parsers

  /** `query[key]`: a string, an array or an object as the query-string parser made it,
      or `undefined` when absent. */
  function Param(query: map<string, JsValue>, key: string): JsValue {
    Field(Obj(query), key)
  }

  /** `String(v)`, what `parseFloat` makes of its argument first. */
  function ToText(v: JsValue, rt: Runtime): string {
    match v
    case Undefined => "undefined"
    case Null => "null"
    case Bool(b) => if b then "true" else "false"
    case Number(n) => rt.numberToString(n)
    case Str(s) => s
    case _ => rt.compositeToString(v)
  }

  /** The global `parseFloat`. */
  function ParseFloat(v: JsValue, rt: Runtime): Num {
    rt.parseFloat(ToText(v, rt))
  }

  /** Why a query parser throws (the handler answers 400 Bad Request with its message). */
  datatype QueryError =
    | CellSizeNaN(rawCellSize: JsValue)
    | CellSizeNotPositive(cellSize: Num)
    | LatitudeMissing
    | LongitudeMissing
    | LatitudeNaN(rawLatitude: JsValue)
    | LongitudeNaN(rawLongitude: JsValue)
    | IntervalsMissing
    | IntervalsNotString
    | IntervalNaN(position: nat, piece: string)
    | RadiusNaN(rawRadius: JsValue)
    | RadiusBelowMinusOne(radius: Num)

  const DefaultCellSize: Num := Fin(0.1)
  const DefaultQueryRadius: Num := Fin(-1.0)

  /** The strings `parseQueryForDeintersect` reads as "yes". */
  const DeintersectWords: set<string> := {"1", "true", "yes", "on", ""}

  /** `parseQueryForCellSize`: 0.1 when the parameter is absent or empty; otherwise the
      parsed number, which must be greater than 0. */
  function ParseCellSize(query: map<string, JsValue>, rt: Runtime): (r: Result<Num, QueryError>)
    ensures !Truthy(Param(query, "cell_size")) ==> r == Success(DefaultCellSize)
    ensures Truthy(Param(query, "cell_size")) ==>
      var v := ParseFloat(Param(query, "cell_size"), rt);
      && (r == Failure(CellSizeNaN(Param(query, "cell_size"))) <==> v.NaN?)
      && (r == Failure(CellSizeNotPositive(v)) <==> !v.NaN? && Le(v, Fin(0.0)))
      && (r.Success? <==> Lt(Fin(0.0), v))
      && (r.Success? ==> r.value == v)
  {
    var raw := Param(query, "cell_size");
    if !Truthy(raw) then Success(DefaultCellSize)
    else
      var cellSize := ParseFloat(raw, rt);
      if cellSize.NaN? then Failure(CellSizeNaN(raw))
      else if Le(cellSize, Fin(0.0)) then Failure(CellSizeNotPositive(cellSize))
      else Success(cellSize)
  }

  /** `parseQueryForCoordinates`: both parameters must be present, latitude checked first,
      and both must parse; the result is `[longitude, latitude]`. */
  function ParseCoordinates(query: map<string, JsValue>, rt: Runtime): (r: Result<Position, QueryError>)
    ensures r == Failure(LatitudeMissing) <==> !Truthy(Param(query, "latitude"))
    ensures r == Failure(LongitudeMissing) <==> Truthy(Param(query, "latitude")) && !Truthy(Param(query, "longitude"))
    ensures r == Failure(LatitudeNaN(Param(query, "latitude"))) <==>
      Truthy(Param(query, "latitude")) && Truthy(Param(query, "longitude"))
      && ParseFloat(Param(query, "latitude"), rt).NaN?
    ensures r == Failure(LongitudeNaN(Param(query, "longitude"))) <==>
      Truthy(Param(query, "latitude")) && Truthy(Param(query, "longitude"))
      && !ParseFloat(Param(query, "latitude"), rt).NaN? && ParseFloat(Param(query, "longitude"), rt).NaN?
    ensures r.Success? ==>
      && r.value == Position(ParseFloat(Param(query, "longitude"), rt), ParseFloat(Param(query, "latitude"), rt))
      && !r.value.lon.NaN? && !r.value.lat.NaN?
  {
    var rawLatitude := Param(query, "latitude");
    var rawLongitude := Param(query, "longitude");
    if !Truthy(rawLatitude) then Failure(LatitudeMissing)
    else if !Truthy(rawLongitude) then Failure(LongitudeMissing)
    else
      var latitude := ParseFloat(rawLatitude, rt);
      var longitude := ParseFloat(rawLongitude, rt);
      if latitude.NaN? then Failure(LatitudeNaN(rawLatitude))
      else if longitude.NaN? then Failure(LongitudeNaN(rawLongitude))
      else Success(Position(longitude, latitude))
  }

  /** Coordinates written as numbers the engine reads back unchanged parse to themselves. */
  lemma CoordinatesRoundTrip(lon: Num, lat: Num, rt: Runtime)
    requires !lon.NaN? && !lat.NaN?
    requires rt.parseFloat(rt.numberToString(lon)) == lon && rt.numberToString(lon) != ""
    requires rt.parseFloat(rt.numberToString(lat)) == lat && rt.numberToString(lat) != ""
    ensures ParseCoordinates(map["latitude" := Str(rt.numberToString(lat)), "longitude" := Str(rt.numberToString(lon))], rt)
         == Success(Position(lon, lat))
  {
    var query := map["latitude" := Str(rt.numberToString(lat)), "longitude" := Str(rt.numberToString(lon))];
    assert Param(query, "latitude") == Str(rt.numberToString(lat));
    assert Param(query, "longitude") == Str(rt.numberToString(lon));
  }

  /** `parseQueryForDeintersect`: true exactly for one of the listed strings (the empty
      string included, although it is falsy); false for anything else, arrays included. */
  function ParseDeintersect(query: map<string, JsValue>): (r: bool)
    ensures r <==> Param(query, "deintersect").Str? && Param(query, "deintersect").s in DeintersectWords
    ensures Param(query, "deintersect") == Str("") ==> r
    ensures Param(query, "deintersect") == Str("false") ==> !r
  {
    var raw := Param(query, "deintersect");
    raw.Str? && (raw.s == "1" || raw.s == "true" || raw.s == "yes" || raw.s == "on" || raw.s == "")
  }

  /** The numbers of the comma-separated pieces, `counter` pieces having been read before. */
  function ParsePieces(pieces: seq<string>, rt: Runtime, counter: nat): (r: Result<seq<Num>, QueryError>)
    ensures r.Success? <==> forall i :: 0 <= i < |pieces| ==> !rt.parseFloat(pieces[i]).NaN?
    ensures r.Success? ==>
      |r.value| == |pieces| && forall i :: 0 <= i < |pieces| ==> r.value[i] == rt.parseFloat(pieces[i])
    ensures r.Failure? ==>
      exists k ::
        && 0 <= k < |pieces|
        && rt.parseFloat(pieces[k]).NaN?
        && (forall i :: 0 <= i < k ==> !rt.parseFloat(pieces[i]).NaN?)
        && r.error == IntervalNaN(counter + k + 1, pieces[k])
  {
    if pieces == [] then Success([])
    else
      var interval := rt.parseFloat(pieces[0]);
      if interval.NaN? then Failure(IntervalNaN(counter + 1, pieces[0]))
      else match ParsePieces(pieces[1..], rt, counter + 1)
        case Failure(e) =>
          var k :| 0 <= k < |pieces[1..]| && rt.parseFloat(pieces[1..][k]).NaN?
                   && (forall i :: 0 <= i < k ==> !rt.parseFloat(pieces[1..][i]).NaN?)
                   && e == IntervalNaN(counter + 1 + k + 1, pieces[1..][k]);
          assert rt.parseFloat(pieces[k + 1]).NaN?;
          Failure(e)
        case Success(rest) => Success([interval] + rest)
  }

  /** `parseQueryForInterval`: the parameter must be present and a string; every
      comma-separated piece must parse, the first that does not being reported by its
      1-based position; the result holds one `{ interval }` per piece, in order. */
  function ParseIntervals(query: map<string, JsValue>, rt: Runtime): (r: Result<seq<Num>, QueryError>)
    ensures r == Failure(IntervalsMissing) <==> !Truthy(Param(query, "intervals"))
    ensures r == Failure(IntervalsNotString) <==> Truthy(Param(query, "intervals")) && !Param(query, "intervals").Str?
    ensures Truthy(Param(query, "intervals")) && Param(query, "intervals").Str? ==>
      var pieces := Split(Param(query, "intervals").s, ',');
      && (r.Success? <==> forall i :: 0 <= i < |pieces| ==> !rt.parseFloat(pieces[i]).NaN?)
      && (r.Success? ==> |r.value| == |pieces| && forall i :: 0 <= i < |pieces| ==> r.value[i] == rt.parseFloat(pieces[i]))
      && (r.Failure? ==>
            exists k ::
              && 0 <= k < |pieces|
              && rt.parseFloat(pieces[k]).NaN?
              && (forall i :: 0 <= i < k ==> !rt.parseFloat(pieces[i]).NaN?)
              && r.error == IntervalNaN(k + 1, pieces[k]))
    ensures r.Success? ==> |r.value| >= 1
  {
    var raw := Param(query, "intervals");
    if !Truthy(raw) then Failure(IntervalsMissing)
    else if !raw.Str? then Failure(IntervalsNotString)
    else
      var pieces := Split(raw.s, ',');
      var r := ParsePieces(pieces, rt, 0);
      assert pieces == Split(Param(query, "intervals").s, ',');
      assert r.Success? ==> forall i :: 0 <= i < |pieces| ==> !rt.parseFloat(pieces[i]).NaN?;
      assert (forall i :: 0 <= i < |pieces| ==> !rt.parseFloat(pieces[i]).NaN?) ==> r.Success?;
      r
  }

  /** Intervals written as comma-separated numbers the engine reads back unchanged parse
      to themselves, in order. */
  lemma IntervalsRoundTrip(ns: seq<Num>, rt: Runtime)
    requires |ns| >= 1
    requires forall i :: 0 <= i < |ns| ==> !ns[i].NaN? && rt.parseFloat(rt.numberToString(ns[i])) == ns[i]
    requires forall i :: 0 <= i < |ns| ==> ',' !in rt.numberToString(ns[i]) && rt.numberToString(ns[i]) != ""
    ensures ParseIntervals(map["intervals" := Str(Join(NumberTexts(ns, rt), ","))], rt) == Success(ns)
  {
    var texts := NumberTexts(ns, rt);
    var query := map["intervals" := Str(Join(texts, ","))];
    SplitJoin(texts, ',');
    assert Split(Join(texts, [',']), ',') == texts;
    assert Join(texts, ",") != "" by {
      JoinNonEmpty(texts, ",");
    }
    assert Param(query, "intervals") == Str(Join(texts, ","));
    var r := ParseIntervals(query, rt);
    assert r.Success?;
    assert r.value == ns;
  }

  function NumberTexts(ns: seq<Num>, rt: Runtime): (ts: seq<string>)
    ensures |ts| == |ns|
    ensures forall i :: 0 <= i < |ns| ==> ts[i] == rt.numberToString(ns[i])
  {
    seq(|ns|, i requires 0 <= i < |ns| => rt.numberToString(ns[i]))
  }

  lemma JoinNonEmpty(parts: seq<string>, sep: string)
    requires |parts| >= 1 && parts[0] != ""
    ensures Join(parts, sep) != ""
  {
    if |parts| > 1 {
      assert Join(parts, sep) == parts[0] + sep + Join(parts[1..], sep);
    }
  }

  /** `parseQueryForRadius`: -1 when absent or empty; otherwise the parsed number, which
      must not lie below -1 (so -1 and 0 are accepted). */
  function ParseRadius(query: map<string, JsValue>, rt: Runtime): (r: Result<Num, QueryError>)
    ensures !Truthy(Param(query, "radius")) ==> r == Success(DefaultQueryRadius)
    ensures Truthy(Param(query, "radius")) ==>
      var v := ParseFloat(Param(query, "radius"), rt);
      && (r == Failure(RadiusNaN(Param(query, "radius"))) <==> v.NaN?)
      && (r == Failure(RadiusBelowMinusOne(v)) <==> !v.NaN? && Lt(v, Fin(-1.0)))
      && (r.Success? <==> !v.NaN? && !Lt(v, Fin(-1.0)))
      && (r.Success? ==> r.value == v)
    ensures r.Success? ==> Le(Fin(-1.0), r.value)
  {
    var raw := Param(query, "radius");
    if !Truthy(raw) then Success(DefaultQueryRadius)
    else
      var radius := ParseFloat(raw, rt);
      if radius.NaN? then Failure(RadiusNaN(raw))
      else if Lt(radius, Fin(-1.0)) then Failure(RadiusBelowMinusOne(radius))
      else Success(radius)
  }

  // ---------------------------------------------------------------------------
  // The options of GET /api/

  /** `[{ interval }, ...]`. */
  function IntervalObjects(ns: seq<Num>): (v: JsValue)
    ensures v.Arr? && |v.items| == |ns|
    ensures forall i :: 0 <= i < |ns| ==> v.items[i] == Obj(map["interval" := Number(ns[i])])
  {
    Arr(seq(|ns|, i requires 0 <= i < |ns| => Obj(map["interval" := Number(ns[i])])))
  }

  /** The options object of the `GET /api/` handler, built from the parsers in the order
      the object literal calls them: coordinates, deintersect, cell size, provider,
      profile, radius, intervals. */
  function QueryOptions(query: map<string, JsValue>, rt: Runtime): (r: Result<map<string, JsValue>, QueryError>)
    ensures ParseCoordinates(query, rt).Failure? ==> r == Failure(ParseCoordinates(query, rt).error)
    ensures ParseCoordinates(query, rt).Success? && ParseCellSize(query, rt).Failure? ==>
      r == Failure(ParseCellSize(query, rt).error)
    ensures (ParseCoordinates(query, rt).Success? && ParseCellSize(query, rt).Success?
             && ParseRadius(query, rt).Failure?) ==> r == Failure(ParseRadius(query, rt).error)
    ensures (ParseCoordinates(query, rt).Success? && ParseCellSize(query, rt).Success?
             && ParseRadius(query, rt).Success? && ParseIntervals(query, rt).Failure?) ==>
      r == Failure(ParseIntervals(query, rt).error)
    ensures r.Success? <==>
      ParseCoordinates(query, rt).Success? && ParseCellSize(query, rt).Success?
      && ParseRadius(query, rt).Success? && ParseIntervals(query, rt).Success?
    ensures r.Success? ==> r.value.Keys == OptionKeys
    ensures r.Success? ==>
      var c := ParseCoordinates(query, rt).value;
      && r.value["origin"] == Obj(map["type" := Str("Point"), "coordinates" := Arr([Number(c.lon), Number(c.lat)])])
      && r.value["cellSize"] == Number(ParseCellSize(query, rt).value)
      && r.value["radius"] == Number(ParseRadius(query, rt).value)
    ensures r.Success? ==>
      && "provider" in r.value && "profile" in r.value && "deintersect" in r.value && "intervals" in r.value
      && r.value["provider"] == (if Truthy(Param(query, "provider")) then Param(query, "provider") else Str("valhalla"))
      && r.value["profile"] == (if Truthy(Param(query, "profile")) then Param(query, "profile") else Str("car"))
      && r.value["deintersect"] == Bool(ParseDeintersect(query))
      && r.value["intervals"] == IntervalObjects(ParseIntervals(query, rt).value)
  {
    var coordinates :- ParseCoordinates(query, rt);
    var deintersect := ParseDeintersect(query);
    var cellSize :- ParseCellSize(query, rt);
    var provider := if Truthy(Param(query, "provider")) then Param(query, "provider") else Str("valhalla");
    var profile := if Truthy(Param(query, "profile")) then Param(query, "profile") else Str("car");
    var radius :- ParseRadius(query, rt);
    var intervals :- ParseIntervals(query, rt);
    Success(OptionsObject(coordinates, deintersect, cellSize, provider, profile, radius, intervals))
  }

  /** The keys of the options object of the `GET /api/` handler. */
  const OptionKeys: set<string> := {"origin", "deintersect", "cellSize", "provider", "profile", "radius", "intervals"}

  /** The object literal of the `GET /api/` handler. */
  function OptionsObject(coordinates: Position, deintersect: bool, cellSize: Num, provider: JsValue,
                         profile: JsValue, radius: Num, intervals: seq<Num>): (m: map<string, JsValue>)
    ensures "provider" in m && m["provider"] == provider
    ensures "profile" in m && m["profile"] == profile
    ensures "deintersect" in m && m["deintersect"] == Bool(deintersect)
    ensures "intervals" in m && m["intervals"] == IntervalObjects(intervals)
    ensures "origin" in m && m["origin"] == Obj(map["type" := Str("Point"),
      "coordinates" := Arr([Number(coordinates.lon), Number(coordinates.lat)])])
    ensures "cellSize" in m && m["cellSize"] == Number(cellSize)
    ensures "radius" in m && m["radius"] == Number(radius)
    ensures m.Keys == OptionKeys
  {
    map[
      "origin" := Obj(map["type" := Str("Point"),
                          "coordinates" := Arr([Number(coordinates.lon), Number(coordinates.lat)])]),
      "deintersect" := Bool(deintersect),
      "cellSize" := Number(cellSize),
      "provider" := provider,
      "profile" := profile,
      "radius" := Number(radius),
      "intervals" := IntervalObjects(intervals)
    ]
  }

  // ---------------------------------------------------------------------------
  // run

  /** Why `run` throws before calling `IsoChrone`. */
  datatype RunError =
    | IntervalsNotArray
    | IntervalNotNumber
    | IntervalNotPositive
    | IntervalsEmpty
    | InvalidProvider(provider: JsValue)
    | OriginMissing
    | OriginNotArray
    | OriginNotPair
    | OriginNotNumbers

  /** The values `_.defaults` fills in. */
  const Defaults: map<string, JsValue> := map[
    "cellSize" := Number(Fin(0.1)),
    "concavity" := Number(Fin(2.0)),
    "deintersect" := Bool(false),
    "lengthThreshold" := Number(Fin(0.0)),
    "profile" := Str("car"),
    "provider" := Str("valhalla"),
    "radius" := Number(Fin(-1.0)),
    "unit" := Str("kilometers")]

  /** The value of `key` after `_.defaults`: the caller's, unless absent or `undefined`. */
  function Defaulted(options: map<string, JsValue>, key: string): JsValue
    requires key in Defaults
  {
    if key in options && options[key] != Undefined then options[key] else Defaults[key]
  }

  /** `_.defaults(options, Defaults)`. */
  function WithDefaults(options: map<string, JsValue>): (r: map<string, JsValue>)
    ensures r.Keys == options.Keys + Defaults.Keys
    ensures forall k :: k in Defaults ==> r[k] == Defaulted(options, k)
    ensures forall k :: k in options && k !in Defaults ==> r[k] == options[k]
  {
    map k | k in options.Keys + Defaults.Keys ::
      if k in Defaults && (k !in options || options[k] == Undefined) then Defaults[k] else options[k]
  }

  /** `_.map(options.intervals, 'interval')`. */
  function IntervalValues(items: seq<JsValue>): (vs: seq<JsValue>)
    ensures |vs| == |items|
    ensures forall i :: 0 <= i < |items| ==> vs[i] == Field(items[i], "interval")
  {
    seq(|items|, i requires 0 <= i < |items| => Field(items[i], "interval"))
  }

  /** An interval `run` lets through: a number that is not `<= 0` (NaN is not). */
  predicate IntervalOk(v: JsValue) {
    v.Number? && !Le(v.n, Fin(0.0))
  }

  /** The `for (const interval of options.intervals)` checks: the first element that is
      not a number, or is `<= 0`, decides the error. */
  function CheckIntervals(vals: seq<JsValue>): (r: Result<seq<Num>, RunError>)
    ensures r.Success? <==> forall i :: 0 <= i < |vals| ==> IntervalOk(vals[i])
    ensures r.Success? ==> |r.value| == |vals| && forall i :: 0 <= i < |vals| ==> vals[i] == Number(r.value[i])
    ensures r.Failure? ==>
      exists k ::
        && 0 <= k < |vals|
        && !IntervalOk(vals[k])
        && (forall i :: 0 <= i < k ==> IntervalOk(vals[i]))
        && r.error == (if vals[k].Number? then IntervalNotPositive else IntervalNotNumber)
  {
    if vals == [] then Success([])
    else if !vals[0].Number? then Failure(IntervalNotNumber)
    else if Le(vals[0].n, Fin(0.0)) then Failure(IntervalNotPositive)
    else match CheckIntervals(vals[1..])
      case Failure(e) =>
        var k :| 0 <= k < |vals[1..]| && !IntervalOk(vals[1..][k])
                 && (forall i :: 0 <= i < k ==> IntervalOk(vals[1..][i]))
                 && e == (if vals[1..][k].Number? then IntervalNotPositive else IntervalNotNumber);
        FirstBadShifts(vals, k);
        Failure(e)
      case Success(ns) => Success([vals[0].n] + ns)
  }

  /** The first bad element of the tail is the first bad element of the whole list when
      the head is good. */
  lemma FirstBadShifts(vals: seq<JsValue>, k: nat)
    requires vals != [] && IntervalOk(vals[0])
    requires k < |vals| - 1 && !IntervalOk(vals[1..][k])
    requires forall i :: 0 <= i < k ==> IntervalOk(vals[1..][i])
    ensures vals[k + 1] == vals[1..][k] && !IntervalOk(vals[k + 1])
    ensures forall i :: 0 <= i < k + 1 ==> IntervalOk(vals[i])
  {
    forall i | 0 <= i < k + 1
      ensures IntervalOk(vals[i])
    {
      if i > 0 {
        assert vals[i] == vals[1..][i - 1];
      }
    }
  }

  /** `120 / 60 * Math.max(...intervals)`: two kilometres per minute of the longest interval. */
  function DefaultRadius(intervals: seq<Num>): Num {
    Scale(MathMax(intervals), 2.0)
  }

  /** What `run` hands to `IsoChrone`: the defaulted options, the intervals, and the two
      origin coordinates. */
  datatype Validated = Validated(options: map<string, JsValue>, intervals: seq<Num>, coordinates: seq<Num>)

  /** The intervals `run` accepts, when its interval checks pass. */
  predicate IntervalsAccepted(options: map<string, JsValue>) {
    var given := Field(Obj(options), "intervals");
    given.Arr? && CheckIntervals(IntervalValues(given.items)).Success?
  }

  predicate ValidProvider(p: JsValue) {
    p == Str("osrm") || p == Str("valhalla")
  }

  /** The options after `_.defaults` and the radius rule: the intervals replaced by their
      numbers, every default filled where the caller gave nothing, every other key kept,
      and a radius that is not positive replaced by twice the longest interval. */
  function Prepared(options: map<string, JsValue>, intervals: seq<Num>, rt: Runtime): (m: map<string, JsValue>)
    ensures m.Keys == options.Keys + Defaults.Keys + {"intervals"}
    ensures "intervals" in m && m["intervals"] == NumberArray(intervals)
    ensures forall k :: k in Defaults && k != "radius" ==> k in m && m[k] == Defaulted(options, k)
    ensures forall k :: k in options && k !in Defaults && k != "intervals" ==> k in m && m[k] == options[k]
    ensures "radius" in m && m["radius"] ==
      (if Le(ToNumber(Defaulted(options, "radius"), rt), Fin(0.0)) then Number(DefaultRadius(intervals))
       else Defaulted(options, "radius"))
  {
    var given := options["intervals" := NumberArray(intervals)];
    var m := WithRadius(WithDefaults(given), intervals, rt);
    PreparedEntries(options, intervals, given, m, rt);
    m
  }

  /** The entries of the prepared options, key by key. */
  lemma PreparedEntries(options: map<string, JsValue>, intervals: seq<Num>, given: map<string, JsValue>,
                        m: map<string, JsValue>, rt: Runtime)
    requires given == options["intervals" := NumberArray(intervals)]
    requires "radius" in WithDefaults(given)
    requires m == WithRadius(WithDefaults(given), intervals, rt)
    ensures m.Keys == options.Keys + Defaults.Keys + {"intervals"}
    ensures "intervals" in m && m["intervals"] == NumberArray(intervals)
    ensures forall k :: k in Defaults && k != "radius" ==> k in m && m[k] == Defaulted(options, k)
    ensures forall k :: k in options && k !in Defaults && k != "intervals" ==> k in m && m[k] == options[k]
    ensures "radius" in m && m["radius"] ==
      (if Le(ToNumber(Defaulted(options, "radius"), rt), Fin(0.0)) then Number(DefaultRadius(intervals))
       else Defaulted(options, "radius"))
  {
    KeysUnion(options.Keys, given.Keys, m.Keys);
    DefaultEntries(options, given, m);
    CallerEntries(options, given, m);
    NoDefaultIntervals();
    assert Defaulted(given, "radius") == Defaulted(options, "radius");
  }

  /** Every default other than the radius is the caller's value or the default. */
  lemma DefaultEntries(options: map<string, JsValue>, given: map<string, JsValue>, m: map<string, JsValue>)
    requires given.Keys == options.Keys + {"intervals"}
    requires forall k :: k in options && k != "intervals" ==> given[k] == options[k]
    requires m.Keys == WithDefaults(given).Keys
    requires forall k :: k in m && k != "radius" ==> m[k] == WithDefaults(given)[k]
    ensures forall k :: k in Defaults && k != "radius" ==> k in m && m[k] == Defaulted(options, k)
  {
    NoDefaultIntervals();
    forall k | k in Defaults && k != "radius"
      ensures k in m && m[k] == Defaulted(options, k)
    {
      assert k != "intervals";
      assert (k in given) == (k in options);
      assert Defaulted(given, k) == Defaulted(options, k);
      assert m[k] == WithDefaults(given)[k];
    }
  }

  /** Every key of the caller's that has no default is kept. */
  lemma CallerEntries(options: map<string, JsValue>, given: map<string, JsValue>, m: map<string, JsValue>)
    requires given.Keys == options.Keys + {"intervals"}
    requires forall k :: k in options && k != "intervals" ==> given[k] == options[k]
    requires m.Keys == WithDefaults(given).Keys
    requires forall k :: k in m && k != "radius" ==> m[k] == WithDefaults(given)[k]
    ensures forall k :: k in options && k !in Defaults && k != "intervals" ==> k in m && m[k] == options[k]
  {
    forall k | k in options && k !in Defaults && k != "intervals"
      ensures k in m && m[k] == options[k]
    {
      assert k != "radius";
    }
  }

  /** `intervals` has no default. */
  lemma NoDefaultIntervals()
    ensures "intervals" !in Defaults
  {
  }

  /** Adding `intervals` and then the default keys adds them to the caller's keys. */
  lemma KeysUnion(caller: set<string>, given: set<string>, result: set<string>)
    requires given == caller + {"intervals"}
    requires result == given + Defaults.Keys
    ensures result == caller + Defaults.Keys + {"intervals"}
  {
  }

  /** The radius rule of `run` on the filled-in options: a radius that is not positive
      becomes twice the longest interval, and nothing else changes. */
  function WithRadius(filled: map<string, JsValue>, intervals: seq<Num>, rt: Runtime): (m: map<string, JsValue>)
    requires "radius" in filled
    ensures m.Keys == filled.Keys
    ensures forall k :: k in filled && k != "radius" ==> m[k] == filled[k]
    ensures Le(ToNumber(filled["radius"], rt), Fin(0.0)) ==> m["radius"] == Number(DefaultRadius(intervals))
    ensures !Le(ToNumber(filled["radius"], rt), Fin(0.0)) ==> m["radius"] == filled["radius"]
  {
    if Le(ToNumber(filled["radius"], rt), Fin(0.0)) then filled["radius" := Number(DefaultRadius(intervals))]
    else filled
  }

  lemma PreparedKeepsOrigin(options: map<string, JsValue>, intervals: seq<Num>, rt: Runtime)
    ensures Field(Obj(Prepared(options, intervals, rt)), "origin") == Field(Obj(options), "origin")
  {
    var given := options["intervals" := NumberArray(intervals)];
    assert "origin" !in Defaults;
    assert "origin" in WithDefaults(given) <==> "origin" in options;
  }

  /** The origin checks of `run`: present, with an array of exactly two numbers as its
      coordinates, which are returned. */
  function CheckOrigin(origin: JsValue): (r: Result<seq<Num>, RunError>)
    ensures r == Failure(OriginMissing) <==> !Truthy(origin)
    ensures r == Failure(OriginNotArray) <==> Truthy(origin) && !Field(origin, "coordinates").Arr?
    ensures r == Failure(OriginNotPair) <==>
      Truthy(origin) && Field(origin, "coordinates").Arr? && |Field(origin, "coordinates").items| != 2
    ensures r == Failure(OriginNotNumbers) <==>
      Truthy(origin) && Field(origin, "coordinates").Arr? && |Field(origin, "coordinates").items| == 2
      && !(Field(origin, "coordinates").items[0].Number? && Field(origin, "coordinates").items[1].Number?)
    ensures r.Success? <==>
      Truthy(origin) && Field(origin, "coordinates").Arr? && |Field(origin, "coordinates").items| == 2
      && Field(origin, "coordinates").items[0].Number? && Field(origin, "coordinates").items[1].Number?
    ensures r.Success? ==>
      |r.value| == 2 && Field(origin, "coordinates") == Arr([Number(r.value[0]), Number(r.value[1])])
  {
    if !Truthy(origin) then Failure(OriginMissing)
    else
      var coords := Field(origin, "coordinates");
      if !coords.Arr? then Failure(OriginNotArray)
      else if |coords.items| != 2 then Failure(OriginNotPair)
      else if !coords.items[0].Number? || !coords.items[1].Number? then Failure(OriginNotNumbers)
      else
        assert coords.items == [coords.items[0], coords.items[1]];
        Success([coords.items[0].n, coords.items[1].n])
  }

  /** The checks and defaults of `run`, as written: the intervals must be an array of
      `{ interval }` with positive numbers; defaults fill what is absent; a radius `<= 0`
      becomes twice the longest interval; the provider must be 'osrm' or 'valhalla'; the
      origin's coordinates must be an array of two numbers. Each check sees only what the
      earlier ones let through. */
  function Validate(options: map<string, JsValue>, rt: Runtime): (r: Result<Validated, RunError>)
    ensures r == Failure(IntervalsNotArray) <==> !Field(Obj(options), "intervals").Arr?
    ensures Field(Obj(options), "intervals").Arr? && !IntervalsAccepted(options) ==>
      r == Failure(CheckIntervals(IntervalValues(Field(Obj(options), "intervals").items)).error)
    ensures IntervalsAccepted(options) ==>
      (r.Failure? && r.error.InvalidProvider? <==> !ValidProvider(Defaulted(options, "provider")))
    ensures IntervalsAccepted(options) && !ValidProvider(Defaulted(options, "provider")) ==>
      r == Failure(InvalidProvider(Defaulted(options, "provider")))
    ensures IntervalsAccepted(options) && ValidProvider(Defaulted(options, "provider")) ==>
      match CheckOrigin(Field(Obj(options), "origin"))
      case Failure(e) => r == Failure(e)
      case Success(c) => r.Success? && r.value.coordinates == c
    ensures r.Success? ==>
      var v := r.value;
      var items := Field(Obj(options), "intervals").items;
      && IntervalsAccepted(options)
      && |v.intervals| == |items|
      && (forall i :: 0 <= i < |items| ==> Field(items[i], "interval") == Number(v.intervals[i]))
      && (forall i :: 0 <= i < |v.intervals| ==> !Le(v.intervals[i], Fin(0.0)))
      && v.options == Prepared(options, v.intervals, rt)
      && ValidProvider(v.options["provider"])
  {
    var given := Field(Obj(options), "intervals");
    if !given.Arr? then Failure(IntervalsNotArray)
    else
      var checked := CheckIntervals(IntervalValues(given.items));
      if checked.Failure? then Failure(checked.error)
      else
        var intervals := checked.value;
        var final := Prepared(options, intervals, rt);
        var provider := final["provider"];
        if !ValidProvider(provider) then Failure(InvalidProvider(provider))
        else
          PreparedKeepsOrigin(options, intervals, rt);
          match CheckOrigin(Field(Obj(final), "origin"))
          case Failure(e) => Failure(e)
          case Success(coordinates) => Success(Validated(final, intervals, coordinates))
  }

  /** An empty intervals array passes every check of `run`, and the default radius
      becomes `2 * Math.max()`, negative infinity. */
  lemma EmptyIntervalsGiveNegativeRadius(options: map<string, JsValue>, rt: Runtime)
    requires Field(Obj(options), "intervals") == Arr([])
    requires Defaulted(options, "radius") == Number(Fin(-1.0))
    requires ValidProvider(Defaulted(options, "provider"))
    requires CheckOrigin(Field(Obj(options), "origin")).Success?
    ensures Validate(options, rt).Success?
    ensures Validate(options, rt).value.options["radius"] == Number(NegInf)
  {
    assert IntervalValues([]) == [];
    NoIntervalsRadius(options, rt);
    var r := Validate(options, rt);
    assert r.Success?;
    assert r.value.intervals == [];
  }

  /** Options with an empty intervals array, no radius, and a valid origin. */
  const EmptyIntervalsSample: map<string, JsValue> := map[
    "intervals" := Arr([]),
    "origin" := Obj(map["coordinates" := Arr([Number(Fin(9.0)), Number(Fin(52.0))])])]

  /** `run` as written lets the sample through with a radius of negative infinity. */
  lemma EmptyIntervalsExample(rt: Runtime)
    ensures Validate(EmptyIntervalsSample, rt).Success?
    ensures Validate(EmptyIntervalsSample, rt).value.options["radius"] == Number(NegInf)
  {
    var options := EmptyIntervalsSample;
    assert Field(Obj(options), "intervals") == Arr([]);
    assert Defaulted(options, "radius") == Number(Fin(-1.0));
    assert ValidProvider(Defaulted(options, "provider"));
    assert CheckOrigin(Field(Obj(options), "origin")).Success?;
    EmptyIntervalsGiveNegativeRadius(options, rt);
  }

  /** With no intervals and no radius given, the radius rule computes `2 * Math.max()`. */
  lemma NoIntervalsRadius(options: map<string, JsValue>, rt: Runtime)
    requires Defaulted(options, "radius") == Number(Fin(-1.0))
    ensures Prepared(options, [], rt)["radius"] == Number(NegInf)
  {
    assert ToNumber(Number(Fin(-1.0)), rt) == Fin(-1.0);
    assert DefaultRadius([]) == NegInf;
  }

  /** `run` with the empty-intervals case rejected, so that the default radius is twice a
      longest interval that exists: positive unless an interval is NaN. */
  function ValidateCorrected(options: map<string, JsValue>, rt: Runtime): (r: Result<Validated, RunError>)
    ensures r == Failure(IntervalsEmpty) <==> Field(Obj(options), "intervals") == Arr([])
    ensures Field(Obj(options), "intervals") != Arr([]) ==> r == Validate(options, rt)
    ensures r.Success? ==> r.value.intervals != []
    ensures r.Success? && Le(ToNumber(Defaulted(options, "radius"), rt), Fin(0.0)) ==>
      var radius := r.value.options["radius"];
      && radius.Number?
      && (radius.n.NaN? <==> NaN in r.value.intervals)
      && (!radius.n.NaN? ==> Lt(Fin(0.0), radius.n))
  {
    if Field(Obj(options), "intervals") == Arr([]) then Failure(IntervalsEmpty)
    else
      var r := Validate(options, rt);
      if r.Success? then
        CorrectedRadius(options, r.value, rt);
        r
      else
        ValidateNeverEmptyError(options, rt);
        r
  }

  /** `run` as written has no empty-intervals error. */
  lemma ValidateNeverEmptyError(options: map<string, JsValue>, rt: Runtime)
    ensures Validate(options, rt) != Failure(IntervalsEmpty)
  {
    var given := Field(Obj(options), "intervals");
    if given.Arr? {
      var checked := CheckIntervals(IntervalValues(given.items));
      if checked.Failure? {
        var k :| 0 <= k < |IntervalValues(given.items)| && checked.error ==
          (if IntervalValues(given.items)[k].Number? then IntervalNotPositive else IntervalNotNumber);
      }
    }
  }

  /** On options `Validate` accepts with a non-empty intervals array, the intervals are
      non-empty and a defaulted radius is twice the longest of them. */
  lemma CorrectedRadius(options: map<string, JsValue>, v: Validated, rt: Runtime)
    requires Field(Obj(options), "intervals") != Arr([])
    requires Validate(options, rt) == Success(v)
    ensures v.intervals != []
    ensures Le(ToNumber(Defaulted(options, "radius"), rt), Fin(0.0)) ==>
      var radius := v.options["radius"];
      && radius.Number?
      && (radius.n.NaN? <==> NaN in v.intervals)
      && (!radius.n.NaN? ==> Lt(Fin(0.0), radius.n))
  {
    var items := Field(Obj(options), "intervals").items;
    assert Field(Obj(options), "intervals") == Arr(items);
    assert |v.intervals| == |items| && items != [];
    DefaultRadiusPositive(v.intervals);
  }

  /** Twice the longest of some positive intervals is positive, unless one is NaN. */
  lemma DefaultRadiusPositive(intervals: seq<Num>)
    requires intervals != []
    requires forall i :: 0 <= i < |intervals| ==> !Le(intervals[i], Fin(0.0))
    ensures DefaultRadius(intervals).NaN? <==> NaN in intervals
    ensures !DefaultRadius(intervals).NaN? ==> Lt(Fin(0.0), DefaultRadius(intervals))
  {
    var m := MathMax(intervals);
    if !m.NaN? {
      assert m in intervals;
    }
  }

  /** The `origin.coordinates` `run` hands to `IsoChrone`: the two checked numbers. */
  function StartOf(v: Validated): seq<JsValue>
    requires |v.coordinates| == 2
  {
    [Number(v.coordinates[0]), Number(v.coordinates[1])]
  }

  /** The options `IsoChrone` reads from the validated options object. */
  function CoreOptions(v: Validated): Options
    requires "provider" in v.options && "profile" in v.options && "deintersect" in v.options
  {
    Options(v.options["provider"], v.options["profile"], v.intervals, v.options["deintersect"])
  }

  /** What the server does with one request's options: a validation error, or the promise
      of `IsoChrone`. */
  datatype Served<P> = Invalid(error: RunError) | Computed(outcome: Outcome<Option<seq<Feature<P, JsValue>>>>)

  /** `run(options)` as written: every check happens before `IsoChrone` is called, and the
      provider check guarantees the computation settles. */
  method Run<P>(options: map<string, JsValue>, sv: Services<P>) returns (s: Served<P>)
    ensures s.Invalid? <==> Validate(options, sv.rt).Failure?
    ensures s.Invalid? ==> s.error == Validate(options, sv.rt).error
    ensures Validate(options, sv.rt).Success? ==>
      var v := Validate(options, sv.rt).value;
      ShapedForIsoChrone(v) && s.Computed? && IsoChroneSettles(StartOf(v), CoreOptions(v), sv, s.outcome)
    ensures s.Computed? ==> !s.outcome.Pending?
  {
    var v := Validate(options, sv.rt);
    if v.Success? {
      ValidatedShape(options, sv.rt);
    }
    s := Serve(v, sv);
  }

  /** `run(options)` with the corrected checks, which reject an empty intervals array. */
  method RunCorrected<P>(options: map<string, JsValue>, sv: Services<P>) returns (s: Served<P>)
    ensures s.Invalid? <==> ValidateCorrected(options, sv.rt).Failure?
    ensures s.Invalid? ==> s.error == ValidateCorrected(options, sv.rt).error
    ensures s == Invalid(IntervalsEmpty) <==> Field(Obj(options), "intervals") == Arr([])
    ensures ValidateCorrected(options, sv.rt).Success? ==>
      var v := ValidateCorrected(options, sv.rt).value;
      ShapedForIsoChrone(v) && s.Computed? && IsoChroneSettles(StartOf(v), CoreOptions(v), sv, s.outcome)
    ensures s.Computed? ==> !s.outcome.Pending?
  {
    var v := ValidateCorrected(options, sv.rt);
    if v.Success? {
      ValidatedShape(options, sv.rt);
    }
    s := Serve(v, sv);
  }

  /** The end of `run`: a validation error is thrown, validated options go to `IsoChrone`
      with the two origin coordinates. */
  method Serve<P>(checked: Result<Validated, RunError>, sv: Services<P>) returns (s: Served<P>)
    requires checked.Success? ==> ShapedForIsoChrone(checked.value)
    ensures s.Invalid? <==> checked.Failure?
    ensures s.Invalid? ==> s.error == checked.error
    ensures checked.Success? ==>
      s.Computed? && IsoChroneSettles(StartOf(checked.value), CoreOptions(checked.value), sv, s.outcome)
    ensures s.Computed? ==> !s.outcome.Pending?
  {
    if checked.Failure? {
      s := Invalid(checked.error);
      return;
    }
    var v := checked.value;
    var o := IsoChrone(StartOf(v), CoreOptions(v), sv);
    s := Computed(o);
  }

  /** Two origin coordinates, and the options `IsoChrone` reads with a known provider. */
  predicate ShapedForIsoChrone(v: Validated) {
    && |v.coordinates| == 2
    && "provider" in v.options && "profile" in v.options && "deintersect" in v.options
    && ValidProvider(v.options["provider"])
  }

  /** What `run` hands to `IsoChrone` has exactly two coordinates and a known provider. */
  lemma ValidatedShape(options: map<string, JsValue>, rt: Runtime)
    requires Validate(options, rt).Success?
    ensures ShapedForIsoChrone(Validate(options, rt).value)
  {
    var v := Validate(options, rt).value;
    assert CheckOrigin(Field(Obj(options), "origin")) == Success(v.coordinates);
  }

  /** Options built from a query that every parser accepts pass `run`'s checks on their
      shape: only a non-positive interval or an unknown provider can still be rejected. */
  lemma QueryOptionsPassShapeChecks(query: map<string, JsValue>, rt: Runtime)
    requires QueryOptions(query, rt).Success?
    ensures var options := QueryOptions(query, rt).value;
      && ValidateCorrected(options, rt) == Validate(options, rt)
      && (Validate(options, rt).Failure? ==>
            Validate(options, rt).error.IntervalNotPositive? || Validate(options, rt).error.InvalidProvider?)
  {
    var options := QueryOptions(query, rt).value;
    var ns := ParseIntervals(query, rt).value;
    var given := Field(Obj(options), "intervals");
    assert given == IntervalObjects(ns);
    assert given != Arr([]) by {
      assert |given.items| == |ns| >= 1;
    }
    IntervalObjectsCheck(ns);
    OriginOfQueryOptions(query, rt);
  }

  /** The interval objects the handler builds hold numbers: `run` can reject them only
      for not being positive. */
  lemma IntervalObjectsCheck(ns: seq<Num>)
    ensures var checked := CheckIntervals(IntervalValues(IntervalObjects(ns).items));
      checked.Failure? ==> checked.error == IntervalNotPositive
  {
    var vals := IntervalValues(IntervalObjects(ns).items);
    forall i | 0 <= i < |vals|
      ensures vals[i].Number?
    {
      assert IntervalObjects(ns).items[i] == Obj(map["interval" := Number(ns[i])]);
    }
  }

  lemma OriginOfQueryOptions(query: map<string, JsValue>, rt: Runtime)
    requires QueryOptions(query, rt).Success?
    ensures CheckOrigin(Field(Obj(QueryOptions(query, rt).value), "origin")).Success?
  {
    var c := ParseCoordinates(query, rt).value;
    var origin := Field(Obj(QueryOptions(query, rt).value), "origin");
    assert origin == Obj(map["type" := Str("Point"), "coordinates" := Arr([Number(c.lon), Number(c.lat)])]);
    assert Field(origin, "coordinates") == Arr([Number(c.lon), Number(c.lat)]);
  }
}

=== FILE: table_merge.dfy ===
/** The fold of `isochroneOSRM` (src/index.mjs and src/index.js alike) that merges the
    table responses of the chunked URLs into one table. The responses are given in URL
    order; fetching them is not modelled. */
module TableMerge {
  import opened Wrappers
  import opened Geo

  /** A travel time in seconds, `None` for the JSON `null` of an unreachable destination. */
  type Duration = Option<real>

  /** A parsed table response. `code` is "" when the response carries no (or a falsy) code. */
  datatype Response = Response(
    code: string,
    sources: seq<Waypoint>,
    durations: seq<seq<Duration>>,
    destinations: seq<Waypoint>)

  /** The outcome of one fetch: a parsed body, or a rejection (bad status, content type or JSON). */
  datatype Reply = Received(response: Response) | TransportFailure(reason: string)

  /** The merged result; its `durations` matrix is the single row `[durationRow]`. */
  datatype Table = Table(code: string, durationRow: seq<Duration>, sources: seq<Waypoint>, destinations: seq<Waypoint>)

  /** Why the merge rejects: a fetch failed, or an Ok response had no `durations[0]`
      (reading its `length` throws a TypeError). */
  datatype MergeError = Transport(reason: string) | MissingDurationRow

  /** The table the fold starts from. */
  const Initial: Table := Table("Error", [Some(0.0)], [], [])

  /** All but the first element; empty for an empty list. */
  function Tail<T>(xs: seq<T>): (t: seq<T>)
    ensures |t| == if xs == [] then 0 else |xs| - 1
  {
    if xs == [] then [] else xs[1..]
  }

  /** The loop body for one Ok response. */
  function Absorb(acc: Table, r: Response): Table
    requires |r.durations| > 0
  {
    Table(
      acc.code,
      acc.durationRow + Tail(r.durations[0]),
      if |acc.sources| == 0 && |r.sources| > 0 then r.sources else acc.sources,
      if |r.destinations| > 1 then
        acc.destinations + (if |acc.destinations| == 0 then [r.destinations[0]] else []) + r.destinations[1..]
      else acc.destinations)
  }

  /** The `for (const url of urls)` loop from a given intermediate result. */
  function MergeFrom(replies: seq<Reply>, acc: Table): Result<Table, MergeError> {
    if replies == [] then Success(acc)
    else match replies[0]
      case TransportFailure(e) => Failure(Transport(e))
      case Received(r) =>
        var seen := acc.(code := if r.code != "" then r.code else acc.code);
        if r.code != "Ok" then Success(seen)
        else if |r.durations| == 0 then Failure(MissingDurationRow)
        else MergeFrom(replies[1..], Absorb(seen, r))
  }

  /** The merge of `isochroneOSRM`. */
  function Merge(replies: seq<Reply>): Result<Table, MergeError> {
    MergeFrom(replies, Initial)
  }

  // ---------------------------------------------------------------------------
  // A closed-form description of the merge

  predicate IsOk(reply: Reply) {
    reply.Received? && reply.response.code == "Ok"
  }

  /** How many replies at the front are Ok responses. */
  function OkCount(replies: seq<Reply>): (k: nat)
    ensures k <= |replies|
    ensures forall i :: 0 <= i < k ==> IsOk(replies[i])
    ensures k < |replies| ==> !IsOk(replies[k])
  {
    if replies == [] || !IsOk(replies[0]) then 0 else 1 + OkCount(replies[1..])
  }

  /** The Ok responses at the front. */
  function OkResponses(replies: seq<Reply>): (rs: seq<Response>)
    ensures |rs| == OkCount(replies)
    ensures forall i :: 0 <= i < |rs| ==> replies[i] == Received(rs[i])
  {
    seq(OkCount(replies), i requires 0 <= i < OkCount(replies) => replies[i].response)
  }

  predicate HasRows(rs: seq<Response>) {
    forall i :: 0 <= i < |rs| ==> |rs[i].durations| > 0
  }

  /** The first duration rows without their first entries, concatenated. */
  function RowTails(rs: seq<Response>): seq<Duration>
    requires HasRows(rs)
  {
    if rs == [] then [] else Tail(rs[0].durations[0]) + RowTails(rs[1..])
  }

  /** The destinations without their first entries, concatenated. */
  function DestinationTails(rs: seq<Response>): seq<Waypoint> {
    if rs == [] then [] else Tail(rs[0].destinations) + DestinationTails(rs[1..])
  }

  /** The first destination of the first response with more than one destination. */
  function HeadDestination(rs: seq<Response>): (h: seq<Waypoint>)
    ensures |h| <= 1
  {
    if rs == [] then []
    else if |rs[0].destinations| > 1 then [rs[0].destinations[0]]
    else HeadDestination(rs[1..])
  }

  /** The sources of the first response that has any. */
  function FirstSources(rs: seq<Response>): seq<Waypoint> {
    if rs == [] then []
    else if |rs[0].sources| > 0 then rs[0].sources
    else FirstSources(rs[1..])
  }

  /** The last truthy code read: that of the reply that stopped the loop, else "Ok"
      when any Ok response was read, else the initial "Error". */
  function LastCode(replies: seq<Reply>, initial: string): string {
    var k := OkCount(replies);
    if k < |replies| && replies[k].Received? && replies[k].response.code != "" then replies[k].response.code
    else if k > 0 then "Ok"
    else initial
  }

  /** The merge described without the loop. */
  function MergeReference(replies: seq<Reply>): Result<Table, MergeError> {
    var rs := OkResponses(replies);
    var k := |rs|;
    if !HasRows(rs) then Failure(MissingDurationRow)
    else if k < |replies| && replies[k].TransportFailure? then Failure(Transport(replies[k].reason))
    else Success(Table(
      LastCode(replies, "Error"),
      [Some(0.0)] + RowTails(rs),
      FirstSources(rs),
      HeadDestination(rs) + DestinationTails(rs)))
  }

  lemma OkResponsesStep(replies: seq<Reply>)
    requires |replies| > 0 && IsOk(replies[0])
    ensures OkResponses(replies) == [replies[0].response] + OkResponses(replies[1..])
  {
  }

  /** What the loop yields from an intermediate result `acc`, without the loop. */
  function ClosedForm(replies: seq<Reply>, acc: Table): Result<Table, MergeError> {
    var rs := OkResponses(replies);
    var k := |rs|;
    if !HasRows(rs) then Failure(MissingDurationRow)
    else if k < |replies| && replies[k].TransportFailure? then Failure(Transport(replies[k].reason))
    else Success(Table(
      LastCode(replies, acc.code),
      acc.durationRow + RowTails(rs),
      if acc.sources == [] then FirstSources(rs) else acc.sources,
      acc.destinations + (if acc.destinations == [] then HeadDestination(rs) else []) + DestinationTails(rs)))
  }

  lemma HasRowsStep(rs: seq<Response>)
    requires |rs| > 0 && |rs[0].durations| > 0
    ensures HasRows(rs) <==> HasRows(rs[1..])
  {
    if HasRows(rs[1..]) {
      forall i | 0 <= i < |rs| ensures |rs[i].durations| > 0 {
        if i > 0 { assert rs[i] == rs[1..][i - 1]; }
      }
    }
  }

  lemma DestinationsStep(acc: Table, r: Response, rest: seq<Response>)
    requires |r.durations| > 0
    ensures var next := Absorb(acc, r);
      var rs := [r] + rest;
      next.destinations + (if next.destinations == [] then HeadDestination(rest) else []) + DestinationTails(rest)
      == acc.destinations + (if acc.destinations == [] then HeadDestination(rs) else []) + DestinationTails(rs)
  {
    var rs := [r] + rest;
    assert rs[1..] == rest;
    var tails := DestinationTails(rest);
    assert DestinationTails(rs) == Tail(r.destinations) + tails;
    var head := if acc.destinations == [] then HeadDestination(rs) else [];
    if |r.destinations| <= 1 {
      assert Tail(r.destinations) + tails == tails;
      assert HeadDestination(rs) == HeadDestination(rest);
    } else {
      var next := Absorb(acc, r);
      assert head == (if |acc.destinations| == 0 then [r.destinations[0]] else []);
      assert next.destinations == acc.destinations + head + r.destinations[1..];
      assert next.destinations != [];
      assert Tail(r.destinations) == r.destinations[1..];
      assert next.destinations + [] + tails == acc.destinations + head + (r.destinations[1..] + tails);
    }
  }

  lemma SourcesStep(acc: Table, r: Response, rest: seq<Response>)
    requires |r.durations| > 0
    ensures var next := Absorb(acc, r);
      (if next.sources == [] then FirstSources(rest) else next.sources)
      == (if acc.sources == [] then FirstSources([r] + rest) else acc.sources)
  {
    assert ([r] + rest)[1..] == rest;
  }

  lemma RowsStep(acc: Table, r: Response, rest: seq<Response>)
    requires |r.durations| > 0 && HasRows(rest)
    ensures HasRows([r] + rest)
    ensures Absorb(acc, r).durationRow + RowTails(rest) == acc.durationRow + RowTails([r] + rest)
  {
    HasRowsStep([r] + rest);
    assert ([r] + rest)[1..] == rest;
  }

  /** Absorbing one Ok response moves it from the replies into the intermediate result. */
  lemma ClosedFormStep(replies: seq<Reply>, acc: Table)
    requires |replies| > 0 && IsOk(replies[0]) && |replies[0].response.durations| > 0
    ensures ClosedForm(replies, acc) == ClosedForm(replies[1..], Absorb(acc.(code := "Ok"), replies[0].response))
  {
    var r := replies[0].response;
    var seen := acc.(code := "Ok");
    OkResponsesStep(replies);
    var rs := OkResponses(replies);
    var rest := OkResponses(replies[1..]);
    assert rs == [r] + rest;
    HasRowsStep(rs);
    assert LastCode(replies, acc.code) == LastCode(replies[1..], "Ok");
    if HasRows(rs) {
      RowsStep(seen, r, rest);
      DestinationsStep(seen, r, rest);
      SourcesStep(seen, r, rest);
      var k := |rs|;
      if k < |replies| {
        assert replies[1..][k - 1] == replies[k];
      }
    }
  }

  /** When the first reply is not an Ok response, the loop ends at once, and so does the
      closed form. */
  lemma ClosedFormWithoutOk(replies: seq<Reply>, acc: Table)
    requires replies == [] || !IsOk(replies[0])
    ensures MergeFrom(replies, acc) == ClosedForm(replies, acc)
  {
    var rs := OkResponses(replies);
    assert OkCount(replies) == 0;
    assert rs == [];
    assert RowTails(rs) == [] && DestinationTails(rs) == [] && HeadDestination(rs) == [] && FirstSources(rs) == [];
    assert acc.durationRow + [] == acc.durationRow;
    assert acc.destinations + [] + [] == acc.destinations;
  }

  /** The loop from any intermediate result equals its closed form. */
  lemma {:induction false} MergeFromClosedForm(replies: seq<Reply>, acc: Table)
    ensures MergeFrom(replies, acc) == ClosedForm(replies, acc)
  {
    if replies == [] || !IsOk(replies[0]) {
      ClosedFormWithoutOk(replies, acc);
    } else if |replies[0].response.durations| == 0 {
      OkResponsesStep(replies);
      assert !HasRows(OkResponses(replies));
    } else {
      var r := replies[0].response;
      MergeFromClosedForm(replies[1..], Absorb(acc.(code := "Ok"), r));
      ClosedFormStep(replies, acc);
    }
  }

  /** The merge equals its closed form: it reads the replies in order up to the first one
      that is not an Ok response; the row starts with the literal 0 and continues with every
      Ok response's row minus its first entry; the destinations start with one origin entry
      and continue with every Ok response's destinations minus their first; the sources are
      those of the first Ok response that has any; the code is the last truthy code read. */
  lemma MergeMatchesReference(replies: seq<Reply>)
    ensures Merge(replies) == MergeReference(replies)
  {
    MergeFromClosedForm(replies, Initial);
    var rs := OkResponses(replies);
    if HasRows(rs) {
      assert [] + HeadDestination(rs) + DestinationTails(rs) == HeadDestination(rs) + DestinationTails(rs);
    }
  }

  /** Nothing after the first reply that is not an Ok response influences the merge. */
  lemma MergeStopsAtFirstNonOk(replies: seq<Reply>, k: nat)
    requires k < |replies|
    requires forall i :: 0 <= i < k ==> IsOk(replies[i])
    requires !IsOk(replies[k])
    ensures Merge(replies) == Merge(replies[..k + 1])
  {
    MergeFromStops(replies, k, Initial);
  }

  lemma {:induction false} MergeFromStops(replies: seq<Reply>, k: nat, acc: Table)
    requires k < |replies|
    requires forall i :: 0 <= i < k ==> IsOk(replies[i])
    requires !IsOk(replies[k])
    ensures MergeFrom(replies, acc) == MergeFrom(replies[..k + 1], acc)
    decreases k
  {
    var front := replies[..k + 1];
    assert front[0] == replies[0];
    if k > 0 {
      var r := replies[0].response;
      if |r.durations| > 0 {
        var seen := acc.(code := if r.code != "" then r.code else acc.code);
        assert front[1..] == replies[1..][..k];
        MergeFromStops(replies[1..], k - 1, Absorb(seen, r));
      }
    }
  }

  /** A failed first fetch rejects the whole merge, whatever the later replies would have been. */
  lemma FirstTransportFailureRejects(replies: seq<Reply>)
    requires |replies| > 0 && replies[0].TransportFailure?
    ensures Merge(replies) == Failure(Transport(replies[0].reason))
  {
  }

  // ---------------------------------------------------------------------------
  // Index alignment of durations and destinations

  /** A response whose first duration row has one entry per destination. */
  predicate Aligned(r: Response) {
    |r.durations| > 0 && |r.durations[0]| == |r.destinations|
  }

  function Zip<A, B>(a: seq<A>, b: seq<B>): (z: seq<(A, B)>)
    requires |a| == |b|
    ensures |z| == |a|
    ensures forall i :: 0 <= i < |a| ==> z[i] == (a[i], b[i])
  {
    if a == [] then [] else [(a[0], b[0])] + Zip(a[1..], b[1..])
  }

  /** Each response's (duration, destination) pairs after its first, concatenated. */
  function PairTails(rs: seq<Response>): seq<(Duration, Waypoint)>
    requires forall i :: 0 <= i < |rs| ==> Aligned(rs[i])
  {
    if rs == [] then []
    else
      assert Aligned(rs[0]);
      Zip(Tail(rs[0].durations[0]), Tail(rs[0].destinations)) + PairTails(rs[1..])
  }

  lemma ZipAppend<A, B>(a1: seq<A>, a2: seq<A>, b1: seq<B>, b2: seq<B>)
    requires |a1| == |b1| && |a2| == |b2|
    ensures Zip(a1 + a2, b1 + b2) == Zip(a1, b1) + Zip(a2, b2)
  {
  }

  lemma {:induction false} TailsAligned(rs: seq<Response>)
    requires forall i :: 0 <= i < |rs| ==> Aligned(rs[i])
    ensures HasRows(rs)
    ensures |RowTails(rs)| == |DestinationTails(rs)|
    ensures Zip(RowTails(rs), DestinationTails(rs)) == PairTails(rs)
    ensures HeadDestination(rs) == [] ==> DestinationTails(rs) == []
  {
    if rs != [] {
      TailsAligned(rs[1..]);
      ZipAppend(Tail(rs[0].durations[0]), RowTails(rs[1..]), Tail(rs[0].destinations), DestinationTails(rs[1..]));
    }
  }

  /** The merge keeps `durations[0][i]` and `destinations[i]` about the same point: when
      every Ok response pairs its row with its destinations, the merged row and destinations
      have equal length (unless no destination was merged, when the row is the lone 0), and
      their entries after the first pair up exactly as the responses paired them, in order. */
  lemma MergeKeepsAlignment(replies: seq<Reply>)
    requires forall i :: 0 <= i < OkCount(replies) ==> Aligned(replies[i].response)
    requires Merge(replies).Success?
    ensures var t := Merge(replies).value;
      && |t.durationRow| >= 1
      && t.durationRow[0] == Some(0.0)
      && (t.destinations == [] ==> t.durationRow == [Some(0.0)])
      && (t.destinations != [] ==>
            && |t.durationRow| == |t.destinations|
            && Zip(t.durationRow[1..], t.destinations[1..]) == PairTails(OkResponses(replies)))
  {
    MergeMatchesReference(replies);
    var rs := OkResponses(replies);
    assert forall i :: 0 <= i < |rs| ==> Aligned(rs[i]);
    TailsAligned(rs);
    var t := Merge(replies).value;
    if t.destinations != [] {
      assert |HeadDestination(rs)| == 1;
      assert t.destinations[1..] == DestinationTails(rs);
      assert t.durationRow[1..] == RowTails(rs);
    }
  }
}

=== FILE: text.dfy ===
/** String operations the core performs itself: `Array.prototype.join`,
    `String.prototype.split` on one character, decimal digits, and the
    `application/x-www-form-urlencoded` serialisation `URLSearchParams` applies. */
module Text {

  predicate IsDigit(c: char) {
    '0' <= c <= '9'
  }

  predicate AllDigits(s: string) {
    forall i :: 0 <= i < |s| ==> IsDigit(s[i])
  }

  /** `parts.join(sep)`. */
  function Join(parts: seq<string>, sep: string): string {
    if parts == [] then ""
    else if |parts| == 1 then parts[0]
    else parts[0] + sep + Join(parts[1..], sep)
  }

  /** Index of the first occurrence of `c` in `s`. */
  function IndexOf(s: string, c: char): (i: nat)
    requires c in s
    ensures i < |s| && s[i] == c && c !in s[..i]
  {
    if s[0] == c then 0 else 1 + IndexOf(s[1..], c)
  }

  /** `s.split(sep)` for a one-character separator: the pieces between separators,
      empty pieces included, so there is always at least one. */
  function Split(s: string, sep: char): (parts: seq<string>)
    ensures |parts| >= 1
    ensures forall i :: 0 <= i < |parts| ==> sep !in parts[i]
    ensures Join(parts, [sep]) == s
    decreases |s|
  {
    if sep !in s then [s]
    else
      var i := IndexOf(s, sep);
      var rest := Split(s[i + 1..], sep);
      assert s == s[..i] + [sep] + s[i + 1..];
      [s[..i]] + rest
  }

  /** The first separator of `a + [sep] + t` is the one after `a` when `a` has none. */
  lemma {:induction false} IndexOfAfterFree(a: string, sep: char, t: string)
    requires sep !in a
    ensures sep in a + [sep] + t
    ensures IndexOf(a + [sep] + t, sep) == |a|
  {
    var s := a + [sep] + t;
    assert s[|a|] == sep;
    if a != [] {
      assert s[0] == a[0];
      assert s[1..] == a[1..] + [sep] + t;
      IndexOfAfterFree(a[1..], sep, t);
    }
  }

  /** Splitting the join of separator-free pieces gives the pieces back. */
  lemma {:induction false} SplitJoin(parts: seq<string>, sep: char)
    requires |parts| >= 1
    requires forall i :: 0 <= i < |parts| ==> sep !in parts[i]
    ensures Split(Join(parts, [sep]), sep) == parts
  {
    if |parts| > 1 {
      var tail := Join(parts[1..], [sep]);
      var s := parts[0] + [sep] + tail;
      assert Join(parts, [sep]) == s;
      IndexOfAfterFree(parts[0], sep, tail);
      var i := |parts[0]|;
      assert s[..i] == parts[0];
      assert s[i + 1..] == tail;
      assert Split(s, sep) == [parts[0]] + Split(tail, sep);
      SplitJoin(parts[1..], sep);
      assert parts == [parts[0]] + parts[1..];
    }
  }

  function DigitChar(d: nat): char
    requires d < 10
  {
    "0123456789"[d]
  }

  /** The decimal spelling of a natural number, as `String(n)` writes it. */
  function NatToDecimal(n: nat): (s: string)
    ensures |s| >= 1 && AllDigits(s)
  {
    if n < 10 then [DigitChar(n)] else NatToDecimal(n / 10) + [DigitChar(n % 10)]
  }

  /** The decimal spellings of a list of natural numbers. */
  function Decimals(ns: seq<nat>): (r: seq<string>)
    ensures |r| == |ns|
    ensures forall i :: 0 <= i < |ns| ==> r[i] == NatToDecimal(ns[i])
  {
    if ns == [] then [] else [NatToDecimal(ns[0])] + Decimals(ns[1..])
  }

  function HexDigit(d: nat): char
    requires d < 16
  {
    "0123456789ABCDEF"[d]
  }

  /** Every character lies in the ASCII range. */
  predicate Ascii(s: string) {
    forall i :: 0 <= i < |s| ==> s[i] as int < 128
  }

  /** The form-urlencoded spelling of one character of the ASCII range. */
  function FormEncodeChar(c: char): string
    requires c as int < 128
  {
    if 'a' <= c <= 'z' || 'A' <= c <= 'Z' || IsDigit(c) || c in "*-._" then [c]
    else if c == ' ' then "+"
    else "%" + [HexDigit(c as int / 16), HexDigit(c as int % 16)]
  }

  /** What `URLSearchParams` writes for a value made of ASCII characters. */
  function FormEncode(s: string): string
    requires Ascii(s)
  {
    if s == [] then "" else FormEncodeChar(s[0]) + FormEncode(s[1..])
  }

  lemma {:induction false} FormEncodeAppend(a: string, b: string)
    requires Ascii(a) && Ascii(b)
    ensures Ascii(a + b)
    ensures FormEncode(a + b) == FormEncode(a) + FormEncode(b)
  {
    if a != [] {
      assert (a + b)[0] == a[0];
      assert (a + b)[1..] == a[1..] + b;
      FormEncodeAppend(a[1..], b);
    } else {
      assert a + b == b;
    }
  }

  lemma {:induction false} FormEncodeDigits(s: string)
    requires AllDigits(s)
    ensures Ascii(s)
    ensures FormEncode(s) == s
  {
    if s != [] {
      FormEncodeDigits(s[1..]);
    }
  }

  /** Form-encoding digit strings joined by `;` leaves the digits alone and spells every
      separator `%3B`. */
  lemma {:induction false} FormEncodeJoinedDigits(parts: seq<string>)
    requires forall i :: 0 <= i < |parts| ==> AllDigits(parts[i])
    ensures Ascii(Join(parts, ";"))
    ensures FormEncode(Join(parts, ";")) == Join(parts, "%3B")
  {
    if |parts| == 1 {
      FormEncodeDigits(parts[0]);
    } else if |parts| > 1 {
      var rest := Join(parts[1..], ";");
      assert Join(parts, ";") == parts[0] + ";" + rest;
      assert Join(parts, "%3B") == parts[0] + "%3B" + Join(parts[1..], "%3B");
      assert forall i :: 0 <= i < |parts[1..]| ==> AllDigits(parts[1..][i]) by {
        forall i | 0 <= i < |parts[1..]| ensures AllDigits(parts[1..][i]) {
          assert parts[1..][i] == parts[i + 1];
        }
      }
      FormEncodeJoinedDigits(parts[1..]);
      FormEncodeDigits(parts[0]);
      assert Ascii(";");
      FormEncodeAppend(parts[0], ";");
      FormEncodeAppend(parts[0] + ";", rest);
      assert FormEncode(";") == "%3B";
    }
  }

  /** The sources parameter of a table request written through `URLSearchParams` reads
      `0%3B1`, not `0;1`: form-encoding `;`-joined decimals spells every `;` as `%3B`. */
  lemma FormEncodeJoinedDecimals(ns: seq<nat>)
    ensures Ascii(Join(Decimals(ns), ";"))
    ensures FormEncode(Join(Decimals(ns), ";")) == Join(Decimals(ns), "%3B")
  {
    FormEncodeJoinedDigits(Decimals(ns));
  }
}

=== FILE: wrappers.dfy ===
/** Failure-carrying results used wherever the source throws or rejects. */
module Wrappers {

  datatype Option<+T> = None | Some(value: T)

  /** `Success` is a normal return; `Failure` is a thrown error or a rejected promise. */
  datatype Result<+R, +E> = Success(value: R) | Failure(error: E) {
    predicate IsFailure() {
      Failure?
    }

    function PropagateFailure<U>(): Result<U, E>
      requires Failure?
    {
      Failure(error)
    }

    function Extract(): R
      requires Success?
    {
      value
    }
  }
}
